=== FILE: README.md ===
# Clinic booking and administration, modelled in Dafny

The system is a clinic web application backed by a hosted Postgres database with
row-level access and an authentication service. It has two sides:

- **The public side.** Patients pick a specialty, a doctor and a half-hour slot on a weekly calendar.
  The booking form is validated by a schema and inserted as an `appointments` row.
- **The staff side.** Behind sign-in, staff whose `profiles.role` is `admin` or `doctor` do the following:
  - see today's appointments;
  - assign doctors;
  - confirm an appointment and create or link the patient record;
  - book slots from a calendar;
  - manage `patients` and doctor accounts.

  Doctor accounts are created through a server function (`create-doctor`). It:
  - checks the caller is an admin;
  - creates the auth user;
  - writes the profile row;
  - deletes the user again when that write fails.

The model keeps the application's decisions and leaves out its rendering:

- **The database** is a value `Db(patients, appointments)`. The doctor endpoint works on
  `Accounts(users, profiles)` instead.
- **Backend results are parameters.** Whether a request succeeds, and the rows a read returns, are passed in as
  `Outcome`, `Reply` or per-endpoint answers. A handler returns the new database, or stores the new
  state in the fields of the class that stands for its React component.
- **Generated values are parameters too**: new ids and the current instant.
- **Time** is an integer number of milliseconds, and a day is `t / 86400000`.
- **JavaScript truthiness** of an optional text is `Present(s)`, meaning present and non-empty.

Modules, one per source file, plus shared ones:

- **Shared:** `Wrappers` (Option, Result, Reply, Outcome), `Types` (the records of `src/types/index.ts`),
  `Backend` (the table operations the pages issue).
- **Booking side:**
  - `TimeSelector` generates the slot table and the week strip;
  - `AppointmentPage` holds the public booking form.
- **Staff dialogs and dashboard list:**
  - `AddAppointmentModal` books a calendar slot;
  - `AppointmentEditModal` edits one appointment;
  - `AppointmentsList` shows today's list.
- **Authentication and routing:**
  - `AuthProvider` holds the session and profile context;
  - `ProtectedRoute` and `AdminRoutes` are the guards;
  - `AppRoutes` is the route table;
  - `DashboardPage` dispatches on the staff role;
  - `Sidebar` is the navigation.
- **Staff pages:**
  - `AppointmentsPage` lists appointments with doctor names and status badges;
  - `PatientAppointmentsList` shows one patient's history;
  - `AppointmentCalendar` colours appointments by doctor;
  - `PacientesPage` manages patients;
  - `DoctoresPage` manages doctors.
- **Server:** `CreateDoctor` is the server function.

Five behaviours of the code are worth knowing, because a reader might expect otherwise:

- The doctor endpoint ignores the answer of its compensating account deletion: when that deletion fails, the response is still 400 and the new account stays (lines 71 and 77 of `supabase/functions/create-doctor/index.ts`, `CreateDoctor.FailedDeleteKeepsAccount`).
- The profile provider never inserts a missing profile row; it only reads (`src/providers/AuthProvider.tsx:20-38`).
- The public booking insert sends no `status` (`src/pages/AppointmentPage.tsx:99-107`). The model takes the table's default status to be pending; the table schema is not part of the source.
- A signed-in user whose profile is missing passes every role check (`src/components/ProtectedRoute.tsx:23`, `ProtectedRoute.MissingProfilePasses`).
- An unknown `/admin/...` path renders the not-found page; it does not redirect (`src/App.tsx:118`).

## Model

| member | source | states |
|---|---|---|
| Types.ParseStatus | src/types/index.ts:9 | exactly the three status texts parse, and parsing gives back the text |
| Types.StatusTextRoundTrip | src/types/index.ts:9 | every status survives printing and parsing |
| Types.ParseRole | src/types/index.ts:19 | exactly `admin` and `doctor` parse, and parsing gives back the text |
| TimeSelector.PaddedTwoDigits | src/components/booking/TimeSelector.tsx:19 | `padStart(2, '0')` of the decimal text of a number below 100 is its two digits |
| TimeSelector.GenerateTimeSlots | src/components/booking/TimeSelector.tsx:16-25 | the loop produces exactly the slot table |
| TimeSelector.SlotTableFormat | src/components/booking/TimeSelector.tsx:18-22 | slot k reads hour 9 + k/2, zero-padded, followed by `:00` for even k and `:30` for odd k |
| TimeSelector.FirstSlot | src/components/booking/TimeSelector.tsx:18-19 | the generated table starts with `09:00` |
| TimeSelector.LastSlot | src/components/booking/TimeSelector.tsx:18-22 | the generated table ends with `17:00` |
| TimeSelector.NoSlotAfterLastHour | src/components/booking/TimeSelector.tsx:20-22 | `17:30` is never offered |
| TimeSelector.SlotTableIncreasing | src/components/booking/TimeSelector.tsx:18-22 | each table entry is the clock text of its minute, the minutes grow by 30 per position, and no two entries are equal |
| TimeSelector.ClockTextInjective | src/components/booking/TimeSelector.tsx:19-21 | two minutes of the day with the same clock text are the same minute |
| TimeSelector.SlotsOffered | src/components/booking/TimeSelector.tsx:76 | no slots without a selected date; the whole table with one |
| TimeSelector.StartOfWeek | src/components/booking/TimeSelector.tsx:31 | the week starts on the Monday on or before the displayed day |
| TimeSelector.WeekDays | src/components/booking/TimeSelector.tsx:31-33 | seven consecutive days from that Monday, containing the displayed day |
| TimeSelector.NextWeekShiftsWindow | src/components/booking/TimeSelector.tsx:35-36 | "next week" moves every shown day by 7, and next and previous undo each other |
| TimeSelector.DayDisabledIffBeforeToday | src/components/booking/TimeSelector.tsx:69 | a day is disabled exactly when it is before today (today stays selectable) |
| AppointmentPage.SplitOn | src/pages/AppointmentPage.tsx:95 | `split(':')` gives at least one piece and no piece contains the separator |
| AppointmentPage.SplitJoinRoundTrip | src/pages/AppointmentPage.tsx:95 | joining the pieces with the separator gives the text back |
| AppointmentPage.NumberOf | src/pages/AppointmentPage.tsx:95 | `Number` of a piece: empty is 0, and it is NaN exactly when a character is not a digit |
| AppointmentPage.DecimalTextRoundTrip | src/pages/AppointmentPage.tsx:95 | reading the digits of a number's decimal text gives the number back |
| AppointmentPage.Utf16Length | src/pages/AppointmentPage.tsx:29 | the name length `min(3)` measures: UTF-16 code units, between the character count and twice it, equal to it exactly when no character is astral |
| AppointmentPage.Utf16LengthAppend | src/pages/AppointmentPage.tsx:29 | the code-unit length of a concatenation is the sum of the lengths |
| AppointmentPage.AstralNameMeetsMinimum | src/pages/AppointmentPage.tsx:29 | the two-character name `𠮷田` is three code units long |
| AppointmentPage.AstralNameNotTooShort | src/pages/AppointmentPage.tsx:29 | a form with that name never draws the too-short complaint |
| AppointmentPage.Parse | src/pages/AppointmentPage.tsx:28-37 | the schema, with the name measured in UTF-16 code units, accepts exactly the forms with no issue; a rejection lists at least one issue; accepted values carry the fields |
| AppointmentPage.FilterDoctors | src/pages/AppointmentPage.tsx:79-89 | with a specialty selected, a doctor is offered exactly when its specialty is that one or it has none; without a selection, none |
| AppointmentPage.FilterDoctorsAppend | src/pages/AppointmentPage.tsx:81 | filtering keeps the list's order: it distributes over concatenation |
| AppointmentPage.ParseTime | src/pages/AppointmentPage.tsx:95 | hours and minutes are non-negative, and a time without `:` does not parse |
| AppointmentPage.CombineDateTime | src/pages/AppointmentPage.tsx:96-97 | setting hours and minutes within range keeps the selected day |
| AppointmentPage.ClockTextParses | src/pages/AppointmentPage.tsx:95-97 | a clock text parses back to its hour and minute |
| AppointmentPage.SlotTimeOnDay | src/pages/AppointmentPage.tsx:95-97 | every offered slot parses, and the booked instant falls on the selected day |
| AppointmentPage.BookingPayload | src/pages/AppointmentPage.tsx:99-107 | the inserted row carries the form's fields and the slot instant, with no status and no patient link |
| AppointmentPage.ResetTimePassesSchemaButNeverParses | src/pages/AppointmentPage.tsx:83-97 | for any accepted form, the same form with the time reset to `""` is still accepted, but its time does not parse |
| AppointmentPage.BookingPage.constructor | src/pages/AppointmentPage.tsx:45-52 | the page opens with no doctors, no filter and the empty form |
| AppointmentPage.BookingPage.LoadDoctors | src/pages/AppointmentPage.tsx:60-77 | the doctor list is replaced on success and kept on error; loading ends |
| AppointmentPage.BookingPage.SpecialtyChanged | src/pages/AppointmentPage.tsx:79-89 | the filtered list follows the specialty, and a selected specialty clears the doctor and the time |
| AppointmentPage.BookingPage.Submit | src/pages/AppointmentPage.tsx:91-116 | not submitted exactly when the schema (name measured in UTF-16 code units) rejects the form; for an accepted form, it throws exactly when the time does not parse; otherwise exactly one insert of the form at date plus time, booked exactly when the insert succeeds; success resets the form, failure keeps it, and submitting ends |
| AddAppointmentModal.FilterBySpecialties | src/components/admin/AddAppointmentModal.tsx:103-113 | a doctor is listed exactly when a specialty is selected and the doctor's `specialties` contains it |
| AddAppointmentModal.FilterBySpecialtiesAppend | src/components/admin/AddAppointmentModal.tsx:105-107 | filtering keeps the list's order |
| AddAppointmentModal.FindPatient | src/components/admin/AddAppointmentModal.tsx:160 | the patient found has the id and is the first loaded patient with it; none is found exactly when no loaded patient has it |
| AddAppointmentModal.AppendFreshEmail | src/components/admin/AddAppointmentModal.tsx:140-158 | inserting a patient whose email is new keeps emails unique |
| AddAppointmentModal.AddAppointmentDialog.constructor | src/components/admin/AddAppointmentModal.tsx:67-82 | the dialog opens on the new-patient tab with the declared defaults |
| AddAppointmentModal.AddAppointmentDialog.LoadPatients | src/components/admin/AddAppointmentModal.tsx:87-101 | the patient list is replaced on success and kept on error |
| AddAppointmentModal.AddAppointmentDialog.SpecialtyChanged | src/components/admin/AddAppointmentModal.tsx:103-113 | the filtered list follows the specialty, and the chosen doctor is always cleared |
| AddAppointmentModal.AddAppointmentDialog.TabChanged | src/components/admin/AddAppointmentModal.tsx:121-128 | switching tabs clears the patient fields and keeps specialty, doctor and notes |
| AddAppointmentModal.AddAppointmentDialog.Submit | src/components/admin/AddAppointmentModal.tsx:130-191 | no slot means nothing happens; a new patient is looked up by email and reused, or inserted with the typed name, email and phone; the patient insert fails exactly when it was needed and failed, and then no appointment is written; otherwise created exactly when the appointment insert succeeds, as one confirmed row at the slot linked to the patient, whose name, email and phone come from the selected patient record when there is one and from the form otherwise; emails stay unique when the lookup answered |
| AppointmentEditModal.StatusOptions | src/components/admin/AppointmentEditModal.tsx:27-31 | three distinct options covering every status |
| AppointmentEditModal.CreatePatientShown | src/components/admin/AppointmentEditModal.tsx:193-197 | "create patient" is shown exactly when no patient is linked |
| AppointmentEditModal.EditDialog.CreatePatientEnabled | src/components/admin/AppointmentEditModal.tsx:193-197 | the button is enabled exactly when a doctor is selected and no request is running |
| AppointmentEditModal.EditDialog.constructor | src/components/admin/AppointmentEditModal.tsx:34-37 | nothing is selected and nothing is running |
| AppointmentEditModal.EditDialog.Open | src/components/admin/AppointmentEditModal.tsx:39-43 | opening selects the appointment's doctor (none for an empty id) and status |
| AppointmentEditModal.EditDialog.LoadDoctors | src/components/admin/AppointmentEditModal.tsx:45-58 | the doctor list is replaced on success and kept on error |
| AppointmentEditModal.EditDialog.SaveChanges | src/components/admin/AppointmentEditModal.tsx:67-85 | one update of this appointment with the selected doctor and status; other rows and every patient link are unchanged |
| AppointmentEditModal.EditDialog.CreatePatient | src/components/admin/AppointmentEditModal.tsx:87-131 | fails at the lookup exactly when the lookup errs, and then writes nothing; the insert fails exactly when no patient was found and the insert failed, and then writes nothing; the linked patient is the one found, otherwise the new one; a linked appointment is confirmed; emails stay unique |
| AppointmentsList.TodayWindow | src/components/admin/AppointmentsList.tsx:23-25 | the window runs from the start of today to 23:59:59.999, and contains `now` |
| AppointmentsList.InTodayWindow | src/components/admin/AppointmentsList.tsx:23-31 | an instant is in the window exactly when it falls on today |
| AppointmentsList.TodaysRows | src/components/admin/AppointmentsList.tsx:27-32 | the query selects exactly the rows dated today; the server's sort by date is not modelled |
| AppointmentsList.TodaysRowsAppend | src/components/admin/AppointmentsList.tsx:27-32 | the model's selection keeps the order it is given: it distributes over concatenation |
| AppointmentsList.DoctorPickerShown | src/components/admin/AppointmentsList.tsx:148-151 | the doctor picker is shown exactly when no doctor is assigned |
| AppointmentsList.ConfirmShown | src/components/admin/AppointmentsList.tsx:169 | confirm is shown exactly for pending appointments |
| AppointmentsList.ConfirmEnabled | src/components/admin/AppointmentsList.tsx:170 | confirm is enabled exactly when a doctor is assigned, so never alongside the picker |
| AppointmentsList.BadgeText | src/components/admin/AppointmentsList.tsx:164-165 | "Pendiente" exactly for pending; every other status, cancelled included, reads "Confirmada" |
| AppointmentsList.AssignDoctor | src/components/admin/AppointmentsList.tsx:58-70 | success writes only this appointment's doctor and reloads; failure writes nothing |
| AppointmentsList.CreateProfile | src/components/admin/AppointmentsList.tsx:72-94 | a failed insert writes nothing; otherwise one new patient (the email count grows by one), then the appointment is confirmed and linked when the update succeeds |
| AppointmentsList.CreateProfileDuplicates | src/components/admin/AppointmentsList.tsx:72-80 | confirming with an email already on file leaves duplicate emails |
| AppointmentsList.TodayList.constructor | src/components/admin/AppointmentsList.tsx:14-17 | empty lists, loading, no error |
| AppointmentsList.TodayList.Reload | src/components/admin/AppointmentsList.tsx:19-52 | both reads succeeding give today's rows and the doctors; either failure shows the error and keeps the lists |
| Backend.IdsWithEmail | src/components/admin/AddAppointmentModal.tsx:141-145 | the ids of exactly the rows with the email |
| Backend.UniqueEmailsMatchAtMostOnce | src/components/admin/AddAppointmentModal.tsx:141-145 | with unique emails, an email matches at most one row |
| Backend.FindByEmail | src/components/admin/AddAppointmentModal.tsx:141-145 | `maybeSingle`: no row exactly when no email matches; a row that matches; an error only when emails repeat |
| Backend.EmailCountAppend | src/pages/admin/PacientesPage.tsx:73-81 | inserting a row adds one to its email's count and nothing to others |
| Backend.InsertPatient | src/pages/admin/PacientesPage.tsx:73-81 | one row appended with the fields sent and a new id; everything else kept |
| Backend.UpdatePatient | src/pages/admin/PacientesPage.tsx:55-64 | rows with the id get the fields sent; other rows and appointments are kept |
| Backend.DeletePatient | src/pages/admin/PacientesPage.tsx:106-109 | exactly the rows with the id are removed |
| Backend.RemoveIdAppend | src/pages/admin/PacientesPage.tsx:106-109 | deleting keeps the remaining rows in their order |
| Backend.InsertAppointment | src/pages/AppointmentPage.tsx:99-107 | one row appended with the values sent; a missing status is stored as pending, which the model takes to be the table default |
| Backend.Patched | src/components/admin/AppointmentsList.tsx:59-62 | a partial update writes exactly the keys sent |
| Backend.UpdateAppointment | src/components/admin/AppointmentsList.tsx:59-62 | rows with the id are patched; the others and the patients are kept |
| AuthProvider.FetchProfile | src/providers/AuthProvider.tsx:20-38 | a row is the profile; the "no rows" code passes its data through; any other error or an exception gives no profile |
| AuthProvider.UseAuth | src/providers/AuthProvider.tsx:67-73 | outside a provider it fails with the message; inside it, it gives the context |
| AuthProvider.AuthState.constructor | src/providers/AuthProvider.tsx:15-17 | no session, no profile, loading |
| AuthProvider.AuthState.OnAuthEvent | src/providers/AuthProvider.tsx:40-53 | the session is stored; signing out makes the context no session, no profile and not loading; signing in changes only the session and starts a profile read |
| AuthProvider.AuthState.OnProfileFetched | src/providers/AuthProvider.tsx:44-48 | a completed read makes the context the current session, the classified profile and not loading |
| ProtectedRoute.Navigation | src/components/ProtectedRoute.tsx:14-28 | while loading, no redirect; otherwise redirect to the login path exactly when there is no session or the role is refused |
| ProtectedRoute.Render | src/components/ProtectedRoute.tsx:30-61 | spinner exactly while loading; the children exactly with a session and no refused role |
| ProtectedRoute.NavigatesIffNotShown | src/components/ProtectedRoute.tsx:14-61 | once loaded, the guard redirects exactly when it does not show the children |
| ProtectedRoute.MissingProfilePasses | src/components/ProtectedRoute.tsx:51-61 | a session whose profile is missing passes any role list |
| ProtectedRoute.NoRoleListAnySession | src/components/ProtectedRoute.tsx:51-61 | without a role list, any session sees the children |
| AdminRoutes.Navigation | src/components/admin/AdminRoutes.tsx:11-25 | no redirect while loading |
| AdminRoutes.Render | src/components/admin/AdminRoutes.tsx:28-55 | the layout with a spinner exactly while loading |
| AdminRoutes.SameDecisionAsRouteGuard | src/components/admin/AdminRoutes.tsx:11-25 | the layout guard decides like the route guard given the same role list |
| AdminRoutes.RedirectingIffNavigates | src/components/admin/AdminRoutes.tsx:40-48 | it renders the redirect placeholder exactly when it navigates |
| AdminRoutes.MissingProfileGetsLayout | src/components/admin/AdminRoutes.tsx:40-55 | a session without a profile gets the layout |
| AppRoutes.Routes | src/App.tsx:31-115 | every role list is non-empty, names only staff roles and includes `admin` |
| AppRoutes.FirstMatch | src/App.tsx:29-119 | the index found is the first route matching the path |
| AppRoutes.Resolve | src/App.tsx:29-119 | the first matching route, otherwise the catch-all not-found route |
| AppRoutes.AtMostOneRouteMatches | src/App.tsx:31-115 | no path matches two routes of the table |
| AppRoutes.OnlyMatchResolves | src/App.tsx:29-119 | any route matching a path is the one it gets, so declaration order and ranking by specificity agree |
| AppRoutes.PublicPaths | src/App.tsx:31-35 | the home, booking and login paths are shown unguarded |
| AppRoutes.DashboardPath | src/App.tsx:36-45 | the dashboard is guarded for admin and doctor |
| AppRoutes.DoctorsPath | src/App.tsx:46-55 | the doctors page is guarded for admin only |
| AppRoutes.PatientsPath | src/App.tsx:56-65 | the patients page is guarded for admin only |
| AppRoutes.PatientProfilePath | src/App.tsx:66-75 | `/admin/pacientes/<id>` is the patient profile, admin only |
| AppRoutes.AppointmentsPath | src/App.tsx:76-85 | the appointments page is guarded for admin and doctor |
| AppRoutes.AdministrationPath | src/App.tsx:86-95 | the administration page is admin only |
| AppRoutes.HelpPath | src/App.tsx:96-105 | help is guarded for admin and doctor |
| AppRoutes.SettingsPath | src/App.tsx:106-115 | settings is guarded for admin and doctor |
| AppRoutes.DoctorKeptOutOfDoctors | src/App.tsx:46-55 | a doctor on the doctors page sees "no permission" and is sent to the login path |
| AppRoutes.MissingProfileOnDashboard | src/App.tsx:36-45 | a session without a profile reaches the dashboard, which shows the no-role message |
| AppRoutes.UnknownStaffPath | src/App.tsx:118 | an unknown staff path shows the not-found page unguarded |
| DashboardPage.Dispatch | src/pages/admin/DashboardPage.tsx:5-29 | loading shows the spinner; otherwise the admin or doctor panel by role, and the message without a profile |
| DashboardPage.LoadingIgnoresProfile | src/pages/admin/DashboardPage.tsx:8-14 | while loading, the panel is the spinner whatever the profile and the session |
| AppointmentsPage.EntryMap | src/pages/admin/AppointmentsPage.tsx:40 | the map's keys are exactly the doctor ids |
| AppointmentsPage.EntryMapLastWins | src/pages/admin/AppointmentsPage.tsx:40 | a repeated id maps to its last row's name |
| AppointmentsPage.JoinDoctor | src/pages/admin/AppointmentsPage.tsx:42-48 | only the doctor name is added; it is present exactly when the id is set and maps to a non-empty name |
| AppointmentsPage.JoinUsesLastRow | src/pages/admin/AppointmentsPage.tsx:40-48 | the joined name is the last matching row's name |
| AppointmentsPage.WithDoctors | src/pages/admin/AppointmentsPage.tsx:42-50 | same rows, same order, each joined |
| AppointmentsPage.StatusBadge | src/pages/admin/AppointmentsPage.tsx:119-120 | known statuses get their label and style; any other text is shown as is |
| AppointmentsPage.StatusBadgesDistinct | src/pages/admin/AppointmentsPage.tsx:66-70 | the three statuses have different labels |
| AppointmentsPage.AppointmentsScreen.constructor | src/pages/admin/AppointmentsPage.tsx:18-20 | empty list, loading, list view |
| AppointmentsPage.AppointmentsScreen.SetView | src/pages/admin/AppointmentsPage.tsx:22-64 | the calendar view reads nothing; the list view reads the appointments and, on success, the doctors; an error keeps the list |
| PatientAppointmentsList.NamedDoctors | src/components/admin/PatientAppointmentsList.tsx:47-52 | only non-empty names are stored |
| PatientAppointmentsList.NamedDoctorsKeys | src/components/admin/PatientAppointmentsList.tsx:47-52 | an id is a key exactly when some row with it has a name |
| PatientAppointmentsList.NamedDoctorsLastNamed | src/components/admin/PatientAppointmentsList.tsx:48-51 | a key maps to the last named row's name |
| PatientAppointmentsList.BuildDoctorMap | src/components/admin/PatientAppointmentsList.tsx:47-53 | the loop builds exactly that map |
| PatientAppointmentsList.NamelessRowDoesNotHideName | src/components/admin/PatientAppointmentsList.tsx:49 | a later row without a name keeps the earlier name, unlike the appointments page |
| PatientAppointmentsList.DoctorCell | src/components/admin/PatientAppointmentsList.tsx:90 | the name when known, otherwise "No asignado" |
| PatientAppointmentsList.StatusBadge | src/components/admin/PatientAppointmentsList.tsx:93-94 | pending and confirmed get their labels; everything else reads "Cancelada" |
| PatientAppointmentsList.BadgesAgreeOnStatuses | src/components/admin/PatientAppointmentsList.tsx:93-94 | this badge agrees with the appointments page on the three statuses and differs on unknown text |
| PatientAppointmentsList.History.constructor | src/components/admin/PatientAppointmentsList.tsx:15-17 | empty list, loading |
| PatientAppointmentsList.History.Load | src/components/admin/PatientAppointmentsList.tsx:19-60 | an appointments error keeps the list and reads no doctors; null means no rows; the doctor names are joined |
| AppointmentCalendar.PaletteFacts | src/components/admin/AppointmentCalendar.tsx:10 | eight colours, none of them the grey |
| AppointmentCalendar.ColorMap | src/components/admin/AppointmentCalendar.tsx:30-33 | every doctor id gets a colour, and every colour is from the palette |
| AppointmentCalendar.ColorOfLastPosition | src/components/admin/AppointmentCalendar.tsx:31-33 | a doctor's colour is the palette entry of its last position, modulo 8 |
| AppointmentCalendar.EightApartShareColor | src/components/admin/AppointmentCalendar.tsx:32 | doctors eight apart share a colour |
| AppointmentCalendar.AssignColors | src/components/admin/AppointmentCalendar.tsx:30-34 | the loop builds exactly the colour map |
| AppointmentCalendar.ToEvent | src/components/admin/AppointmentCalendar.tsx:43-56 | same background and border; grey without a doctor; the doctor's colour when known, none otherwise |
| AppointmentCalendar.GreyIffNoDoctor | src/components/admin/AppointmentCalendar.tsx:48-49 | with the palette map, an event is grey exactly when no doctor is assigned |
| AppointmentCalendar.ToEvents | src/components/admin/AppointmentCalendar.tsx:43-57 | one event per appointment, in order |
| AppointmentCalendar.Calendar.constructor | src/components/admin/AppointmentCalendar.tsx:13-14 | no events and no colours |
| AppointmentCalendar.Calendar.Load | src/components/admin/AppointmentCalendar.tsx:19-59 | a doctors error stops before reading appointments; otherwise the colours are built, and an appointments error keeps the events |
| Sidebar.Groups | src/components/admin/Sidebar.tsx:66-89 | three groups, titled in order |
| Sidebar.AllItems | src/components/admin/Sidebar.tsx:14-28 | the seven items are the three groups' items in order |
| Sidebar.HrefKeys | src/components/admin/Sidebar.tsx:14-28 | every link starts with `/admin/`, and any two differ within the next two characters |
| Sidebar.NoHrefIsAPrefixOfAnother | src/components/admin/Sidebar.tsx:14-28 | no item is highlighted on another item's page |
| Sidebar.AtMostOneActive | src/components/admin/Sidebar.tsx:40 | at most one item is highlighted on any path |
| Sidebar.PatientProfileActivatesPatients | src/components/admin/Sidebar.tsx:40 | a patient's profile highlights "Patients" |
| CreateDoctor.ProfileDataOf | supabase/functions/create-doctor/index.ts:58-64 | the role is always doctor; missing specialties become empty; an empty or missing phone or address is stored as null |
| CreateDoctor.UpdateProfiles | supabase/functions/create-doctor/index.ts:68-73 | rows with the id get the profile data; others are kept |
| CreateDoctor.NewProfile | supabase/functions/create-doctor/index.ts:74-79 | the inserted row carries the account id and the profile data, and no email |
| CreateDoctor.RemoveUser | supabase/functions/create-doctor/index.ts:71-72 | exactly the users with the id are removed |
| CreateDoctor.RemoveUserAppend | supabase/functions/create-doctor/index.ts:71-72 | deleting an account keeps the remaining accounts in their order |
| CreateDoctor.CompensationRestoresUsers | supabase/functions/create-doctor/index.ts:71-78 | deleting a freshly created user restores the user list |
| CreateDoctor.FoundIffRowOnCreate | supabase/functions/create-doctor/index.ts:66-68 | for a fresh account id, `.single()` finds a profile exactly when the database added one on account creation |
| CreateDoctor.SuccessWritesDoctorProfile | supabase/functions/create-doctor/index.ts:58-80 | for a fresh account id, success leaves exactly one profile row for the new doctor, carrying the profile data, and keeps every earlier row |
| CreateDoctor.Handle | supabase/functions/create-doctor/index.ts:9-87 | preflight is 200 with no work; 401 without a user, 403 for a non-admin, 400 for missing fields or a failed create or write, 500 on an exception; success appends the account and updates or inserts the profile; a failed write deletes the account only when that deletion succeeds, and answers 400 either way |
| CreateDoctor.WriteProfile | supabase/functions/create-doctor/index.ts:66-80 | update when `.single()` finds exactly one row and insert otherwise; a failed write asks for the deletion and answers 400, keeping the account if the deletion fails |
| CreateDoctor.FailedWriteLeavesNoTrace | supabase/functions/create-doctor/index.ts:66-80 | when the profile write fails, the account id is fresh, no profile row was added on creation and the deletion succeeds, users and profiles are as before |
| CreateDoctor.FailedDeleteKeepsAccount | supabase/functions/create-doctor/index.ts:70-79 | when the deletion fails, the new account stays at the end of the account list and any row added on creation stays |
| DoctoresPage.FormOf | src/pages/admin/DoctoresPage.tsx:124-135 | editing fills the form from the row, with empty email and password |
| DoctoresPage.EditProfiles | src/pages/admin/DoctoresPage.tsx:60-69 | the update writes only name, specialties, phone and address of that row |
| DoctoresPage.EditKeepsRoleAndEmail | src/pages/admin/DoctoresPage.tsx:60-69 | editing never changes a role, email or id |
| DoctoresPage.RequestBody | src/pages/admin/DoctoresPage.tsx:92-106 | the body has the required fields exactly when the form is complete |
| DoctoresPage.CreateStoresNullForBlank | src/pages/admin/DoctoresPage.tsx:92-106 | blank phone and address from the form are stored as null by the endpoint |
| DoctoresPage.DoctorsScreen.constructor | src/pages/admin/DoctoresPage.tsx:21-33 | empty list, loading, closed dialog, empty form |
| DoctoresPage.DoctorsScreen.Reload | src/pages/admin/DoctoresPage.tsx:39-53 | the list is replaced on success and kept on error |
| DoctoresPage.DoctorsScreen.ResetForm | src/pages/admin/DoctoresPage.tsx:165-169 | empty form, not editing, dialog closed |
| DoctoresPage.DoctorsScreen.HandleEdit | src/pages/admin/DoctoresPage.tsx:124-135 | edits that doctor with its values and opens the dialog |
| DoctoresPage.DoctorsScreen.HandleSubmit | src/pages/admin/DoctoresPage.tsx:55-122 | editing updates the profile; creating needs a complete form and a session, and succeeds exactly when the endpoint creates and writes, leaving the endpoint's success state; a rejection is 400, 401 or 403 and leaves the backend untouched unless an account was created, in which case it is the endpoint's failed-write state |
| DoctoresPage.DoctorsScreen.HandleDelete | src/pages/admin/DoctoresPage.tsx:137-163 | a request is sent exactly when confirmed with a session; reload exactly when it succeeds |
| PacientesPage.FormOf | src/pages/admin/PacientesPage.tsx:93-101 | editing fills name and email, and the phone or an empty text |
| PacientesPage.UnchangedEditRewritesRow | src/pages/admin/PacientesPage.tsx:93-101 | saving an untouched edit writes an empty phone where there was none |
| PacientesPage.ManualInsertCountsEmail | src/pages/admin/PacientesPage.tsx:73-81 | a manual insert does not check the email, so the count grows by one |
| PacientesPage.PatientsScreen.constructor | src/pages/admin/PacientesPage.tsx:23-31 | empty list, loading, closed dialog, empty form |
| PacientesPage.PatientsScreen.Reload | src/pages/admin/PacientesPage.tsx:37-50 | the list is replaced on success and kept on error |
| PacientesPage.PatientsScreen.ResetForm | src/pages/admin/PacientesPage.tsx:119-123 | empty form, not editing, dialog closed |
| PacientesPage.PatientsScreen.NewPatient | src/pages/admin/PacientesPage.tsx:135 | empty form, not editing, dialog open |
| PacientesPage.PatientsScreen.HandleEdit | src/pages/admin/PacientesPage.tsx:93-101 | edits that patient with its values and opens the dialog |
| PacientesPage.PatientsScreen.HandleSubmit | src/pages/admin/PacientesPage.tsx:52-91 | an edit updates that patient, otherwise one insert; failure changes nothing; success closes and reloads |
| PacientesPage.PatientsScreen.HandleDelete | src/pages/admin/PacientesPage.tsx:103-117 | a request only when confirmed; success removes exactly that patient and reloads |

## Left out

- Rendering, styling, toasts and dialogs' visual state are not modelled. Only the values a handler reads or writes are.
- Concurrency is not modelled. Each effect or handler is one atomic step; interleavings of overlapping fetches and stale responses are not captured. The one exception is the order in which profile reads complete in `AuthProvider`.
- The database's own checks (uniqueness, foreign keys, row-level access) are not modelled. Every write's success is a parameter.
- Server-side ordering (`.order(...)`) is not modelled; reads return table order.
- `AppointmentEditModal.EditDialog.LoadDoctors`: the `.or(...)` specialty filter of the doctors query runs on the server. The model takes the rows it returns.
- Dates use no time zone, and the date-fns helpers are replaced by whole-day arithmetic on milliseconds.
- Clock readings and generated ids are parameters.
- `AppointmentPage.ValidEmail` is a structural approximation of the form library's email check (one `@`, non-empty parts, a dot in the domain), not its regular expression.
- `PacientesPage.PatientsScreen.HandleSubmit` and `DoctoresPage.DoctorsScreen.HandleSubmit` accept any form. The browser's own input checks run before the handlers and are not modelled: `required` and `type="email"` on the patient form, and `required`, `type="email"` and the password's `minLength={6}` on the doctor form (lines 201, 205 and 228 of `src/pages/admin/DoctoresPage.tsx`).
- `AppointmentPage.CombineDateTime` and `AppointmentPage.ParseTime` work on unbounded integers. JavaScript's Date range (±8.64e15 ms, past which `toISOString` throws) and the double precision of `Number` are not modelled. No slot the picker offers comes near either bound.
- `AppointmentPage.NumberOf` models `Number()` only on digit strings and the empty string. Whitespace, signs, hexadecimal and exponent forms all count as NaN.
- `AddAppointmentModal.AddAppointmentDialog.Submit` takes values the form schema has already accepted. That dialog's schema is not modelled.
- The router's matching is not modelled in full: trailing slashes, case and percent-encoding are left out. `AppRoutes.Matches` covers exact paths and one `:id` segment.
- CreateDoctor.Handle: the profile row that may appear when the account is created is an answer (`rowOnCreate`), because the table's triggers are not part of the source. A failed `.single()` read other than for zero or several rows is not modelled. A failed write leaves that row in place even when the account is deleted, because a cascading foreign key is not part of the source either.
- The one-second pause in the doctor endpoint, and its CORS headers, are not modelled.
- The token handed to `getUser` is not modelled; the endpoint's answers decide the caller.
- The endpoint that deletes a doctor is not part of this model. `DoctoresPage.DoctorsScreen.HandleDelete` takes its success as a parameter.
- `response.json()` failing in the doctors page is not modelled.
- Environment variables and client construction are not modelled.
- `Types.ParseStatus` and `Types.ParseRole`: statuses and roles are closed datatypes. Other stored text is handled only where a page shows raw text (`AppointmentsPage.StatusBadge`, `PatientAppointmentsList.StatusBadge`).
- The `Profile` record carries both `specialty` and `specialties`. The TypeScript interface declares only the first, but the pages read both.
- The pages and components outside the booking, staff and routing core are not part of this model: landing sections, header, footer, charts, statistics, the patient profile page's contents, the details modal and the login forms.

=== FILE: add_appointment_modal.dfy ===
/**
 * The staff dialog that books a calendar slot: doctors filtered by the `specialties`
 * array, the tab switch between a new and an existing patient, and the submit handler
 * that finds or creates the patient by email and then inserts a confirmed appointment.
 */
module AddAppointmentModal {
  import opened Wrappers
  import opened Types
  import opened Backend

  /** A doctor is listed when its `specialties` array contains the selected specialty. */
  predicate ListsSpecialty(d: Profile, selected: string)
  {
    d.specialties.Some? && selected in d.specialties.value
  }

  /**
   * `doctors.filter(doc => doc.specialties?.includes(selected))` when a specialty is
   * selected, and no doctors otherwise. Doctors without a `specialties` array never match.
   */
  function FilterBySpecialties(doctors: seq<Profile>, selected: Option<string>): (r: seq<Profile>)
    ensures |r| <= |doctors|
    ensures forall d :: d in r <==> Present(selected) && d in doctors && ListsSpecialty(d, selected.value)
    ensures forall d :: d in r ==> d.specialties.Some?
  {
    if !Present(selected) || doctors == [] then []
    else
      var rest := FilterBySpecialties(doctors[1..], selected);
      if ListsSpecialty(doctors[0], selected.value) then [doctors[0]] + rest else rest
  }

  /** Filtering keeps the relative order: it distributes over concatenation. */
  lemma {:induction false} FilterBySpecialtiesAppend(a: seq<Profile>, b: seq<Profile>, selected: Option<string>)
    ensures FilterBySpecialties(a + b, selected) == FilterBySpecialties(a, selected) + FilterBySpecialties(b, selected)
  {
    if a == [] {
      assert a + b == b;
    } else if Present(selected) {
      assert (a + b)[1..] == a[1..] + b;
      FilterBySpecialtiesAppend(a[1..], b, selected);
    }
  }

  /** The dialog's form values; `undefined` is `None`. */
  datatype AddForm = AddForm(
    patientId: Option<string>,
    fullName: Option<string>,
    email: Option<string>,
    phone: Option<string>,
    specialty: Option<string>,
    doctorId: Option<string>,
    notes: Option<string>)

  /** The declared default values: empty name, email, phone and notes. */
  function InitialForm(): AddForm
  {
    AddForm(None, Some(""), Some(""), Some(""), None, None, Some(""))
  }

  /** The values the submit handler receives once the form schema has accepted them. */
  datatype AddValues = AddValues(
    patientId: Option<string>,
    fullName: string,
    email: string,
    phone: Option<string>,
    specialty: string,
    doctorId: Option<string>,
    notes: Option<string>)

  datatype Tab = NewPatientTab | ExistingPatientTab

  /** What became of a submit. */
  datatype AddResult = NoSlot | Created | PatientInsertFailed | AppointmentInsertFailed

  /** `patients.find(p => p.id === id)`: the first loaded patient with that id. */
  function FindPatient(patients: seq<Patient>, id: Id): (r: Option<Patient>)
    ensures r.Some? ==> r.value in patients && r.value.id == id
    ensures r.Some? ==>
      exists i :: 0 <= i < |patients| && patients[i] == r.value && forall j :: 0 <= j < i ==> patients[j].id != id
    ensures r.None? <==> forall i :: 0 <= i < |patients| ==> patients[i].id != id
  {
    if patients == [] then None
    else if patients[0].id == id then Some(patients[0])
    else FindPatient(patients[1..], id)
  }

  /** Appending a patient whose email no row has keeps emails unique. */
  lemma AppendFreshEmail(ps: seq<Patient>, p: Patient)
    requires EmailsUnique(ps)
    requires forall i :: 0 <= i < |ps| ==> ps[i].email != p.email
    ensures EmailsUnique(ps + [p])
  {
  }

  class AddAppointmentDialog {
    var filteredDoctors: seq<Profile>
    var patients: seq<Patient>
    var activeTab: Tab
    var form: AddForm
    /** `reset(values)` also makes `values` the defaults a later plain `reset()` returns to. */
    var defaults: AddForm
    var submitting: bool

    constructor ()
      ensures filteredDoctors == [] && patients == [] && activeTab == NewPatientTab
      ensures form == InitialForm() && defaults == InitialForm() && !submitting
    {
      filteredDoctors := [];
      patients := [];
      activeTab := NewPatientTab;
      form := InitialForm();
      defaults := InitialForm();
      submitting := false;
    }

    /** The patients fetch when the dialog opens: replaced on success, kept on error. */
    method LoadPatients(reply: Reply<seq<Patient>>)
      modifies this
      ensures patients == (if reply.Data? then reply.value else old(patients))
      ensures filteredDoctors == old(filteredDoctors) && activeTab == old(activeTab)
      ensures form == old(form) && defaults == old(defaults) && submitting == old(submitting)
    {
      if reply.Data? {
        patients := reply.value;
      }
    }

    /** The specialty effect: refilter the doctors, and clear the chosen doctor in every case. */
    method SpecialtyChanged(doctors: seq<Profile>)
      modifies this
      ensures filteredDoctors == FilterBySpecialties(doctors, old(form.specialty))
      ensures form == old(form).(doctorId := None)
      ensures patients == old(patients) && activeTab == old(activeTab)
      ensures defaults == old(defaults) && submitting == old(submitting)
    {
      if Present(form.specialty) {
        filteredDoctors := FilterBySpecialties(doctors, form.specialty);
      } else {
        filteredDoctors := [];
      }
      form := form.(doctorId := None);
    }

    /** Switching tabs keeps specialty, doctor and notes and clears every patient field. */
    method TabChanged(tab: Tab)
      modifies this
      ensures activeTab == tab
      ensures form == AddForm(None, None, None, None, old(form.specialty), old(form.doctorId), old(form.notes))
      ensures defaults == form
      ensures form.specialty == old(form.specialty) && form.doctorId == old(form.doctorId) && form.notes == old(form.notes)
      ensures filteredDoctors == old(filteredDoctors) && patients == old(patients) && submitting == old(submitting)
    {
      activeTab := tab;
      form := AddForm(None, None, None, None, form.specialty, form.doctorId, form.notes);
      defaults := form;
    }

    /**
     * Submit. Without a selected slot nothing happens. A new patient (no `patientId`) is
     * looked up by email: a match is reused; no match, or a failed lookup, leads to an
     * insert, whose failure ends the submit before any appointment is written. An
     * existing patient's name, email and phone come from the loaded list when it is
     * there. The appointment is inserted as confirmed, at the slot start, linked to the
     * patient; success closes the dialog.
     */
    method Submit(db: Db, values: AddValues, slot: Option<Millis>, lookup: Outcome, patientInsert: Outcome,
                  newPatientId: Id, appointmentInsert: Outcome, newAppointmentId: Id, now: Millis)
      returns (db': Db, result: AddResult, linked: Option<Id>)
      modifies this
      ensures slot.None? ==> result == NoSlot && db' == db && form == old(form) && submitting == old(submitting)
      ensures slot.Some? ==> result != NoSlot && !submitting
      ensures result == PatientInsertFailed ==> db' == db
      ensures result != Created ==> db'.appointments == db.appointments
      ensures !Present(values.patientId) && lookup.Ok? && FindByEmail(db.patients, values.email).Row? && slot.Some? ==>
        db'.patients == db.patients && linked == Some(FindByEmail(db.patients, values.email).id)
      ensures result == PatientInsertFailed <==>
        slot.Some? && !Present(values.patientId) && !(lookup.Ok? && FindByEmail(db.patients, values.email).Row?) &&
        patientInsert.Failed?
      ensures slot.Some? && result != PatientInsertFailed ==> (result == Created <==> appointmentInsert.Ok?)
      ensures !Present(values.patientId) && (lookup.Failed? || !FindByEmail(db.patients, values.email).Row?) && slot.Some? ==>
        result != PatientInsertFailed ==> (
          db'.patients == db.patients + [Patient(newPatientId, values.fullName, values.email, values.phone, now, None, None, None)] &&
          linked == Some(newPatientId))
      ensures Present(values.patientId) ==> db'.patients == db.patients && (slot.Some? ==> linked == values.patientId)
      ensures EmailsUnique(db.patients) && lookup.Ok? ==> EmailsUnique(db'.patients)
      ensures result == Created <==> slot.Some? && appointmentInsert.Ok? && |db'.appointments| == |db.appointments| + 1
      ensures result == Created ==> (
        var row := db'.appointments[|db.appointments|];
        row.status == Confirmed && row.patientId == linked && linked.Some? &&
        row.appointmentDate == slot.value && row.specialty == values.specialty && row.doctorId == values.doctorId &&
        row.notes == values.notes && row.id == newAppointmentId &&
        (var selected := if Present(values.patientId) then FindPatient(old(patients), values.patientId.value) else None;
         if selected.Some?
         then row.fullName == selected.value.fullName && row.email == selected.value.email && row.phone == selected.value.phone
         else row.fullName == values.fullName && row.email == values.email && row.phone == values.phone) &&
        db'.appointments[..|db.appointments|] == db.appointments &&
        form == defaults && activeTab == NewPatientTab)
      ensures result != Created ==> form == old(form) && activeTab == old(activeTab)
      ensures defaults == old(defaults) && patients == old(patients) && filteredDoctors == old(filteredDoctors)
    {
      db' := db;
      linked := None;
      if slot.None? {
        return db, NoSlot, None;
      }
      submitting := true;
      var patientId := values.patientId;
      var patientFullName := values.fullName;
      var patientEmail := values.email;
      var patientPhone := values.phone;

      if !Present(patientId) {
        var existing := if lookup.Ok? then FindByEmail(db.patients, values.email) else LookupError;
        if existing.Row? {
          patientId := Some(existing.id);
        } else {
          if patientInsert.Failed? {
            submitting := false;
            return db, PatientInsertFailed, None;
          }
          if lookup.Ok? && EmailsUnique(db.patients) {
            var p := Patient(newPatientId, values.fullName, values.email, values.phone, now, None, None, None);
            AppendFreshEmail(db.patients, p);
          }
          db' := InsertPatient(db, PatientFields(values.fullName, values.email, values.phone), newPatientId, now);
          patientId := Some(newPatientId);
        }
      } else {
        var selected := FindPatient(patients, patientId.value);
        if selected.Some? {
          patientFullName := selected.value.fullName;
          patientEmail := selected.value.email;
          patientPhone := selected.value.phone;
        }
      }
      linked := patientId;

      var appointment := NewAppointment(patientFullName, patientEmail, patientPhone, values.specialty, values.doctorId,
                                        slot.value, values.notes, Some(Confirmed), patientId);
      if appointmentInsert.Failed? {
        submitting := false;
        return db', AppointmentInsertFailed, linked;
      }
      db' := InsertAppointment(db', appointment, newAppointmentId, now);
      form := defaults;
      activeTab := NewPatientTab;
      result := Created;
      submitting := false;
    }
  }
}

=== FILE: admin_routes.dfy ===
/**
 * The layout-level guard: the same decision as the route guard, rendered inside the
 * admin layout (a spinner while loading, the nested page when allowed).
 */
module AdminRoutes {
  import opened Wrappers
  import opened Types
  import opened AuthProvider
  import ProtectedRoute

  /** The effect, written out as this guard writes it. */
  function Navigation(v: AuthView, allowed: Option<seq<Role>>): (target: Option<string>)
    ensures v.loading ==> target.None?
  {
    if v.loading then None
    else if v.session.None? then Some("/admin/login")
    else if allowed.Some? && v.profile.Some? && v.profile.value.role !in allowed.value then Some("/admin/login")
    else None
  }

  datatype Screen = LayoutWithSpinner | Redirecting | LayoutWithPage

  function Render(v: AuthView, allowed: Option<seq<Role>>): (s: Screen)
    ensures s == LayoutWithSpinner <==> v.loading
  {
    if v.loading then LayoutWithSpinner
    else if v.session.None? || (allowed.Some? && v.profile.Some? && v.profile.value.role !in allowed.value) then Redirecting
    else LayoutWithPage
  }

  /** Both guards navigate in the same cases and to the same place. */
  lemma SameDecisionAsRouteGuard(v: AuthView, allowed: Option<seq<Role>>)
    ensures Navigation(v, allowed) == ProtectedRoute.Navigation(v, allowed)
    ensures Render(v, allowed) == LayoutWithPage <==> ProtectedRoute.Render(v, allowed) == ProtectedRoute.Children
  {
  }

  /** "Redirigiendo..." is rendered exactly when the effect navigates. */
  lemma RedirectingIffNavigates(v: AuthView, allowed: Option<seq<Role>>)
    ensures Render(v, allowed) == Redirecting <==> Navigation(v, allowed).Some?
  {
  }

  /** A session without a loaded profile gets the layout and the page. */
  lemma MissingProfileGetsLayout(v: AuthView, allowed: Option<seq<Role>>)
    requires !v.loading && v.session.Some? && v.profile.None?
    ensures Render(v, allowed) == LayoutWithPage
  {
  }
}

=== FILE: app_routes.dfy ===
/**
 * The application's route table: each path, the page it shows and, for the staff area,
 * the roles its guard admits; and what a visitor sees on a path given the auth context.
 */
module AppRoutes {
  import opened Wrappers
  import opened Types
  import opened AuthProvider
  import ProtectedRoute
  import DashboardPage

  datatype Page =
    | HomePage | BookingPage | LoginPage | Dashboard | Doctors | Patients | PatientProfile
    | Appointments | UnderConstruction | NotFound

  /** A path pattern: a literal path, or a prefix followed by one non-empty `:id` segment. */
  datatype Pattern = Exact(path: string) | WithParam(prefix: string)

  /** A route; `allowed` is `None` for a route without a guard. */
  datatype Route = Route(pattern: Pattern, allowed: Option<seq<Role>>, page: Page)

  predicate Matches(p: Pattern, path: string)
  {
    match p
    case Exact(s) => path == s
    case WithParam(prefix) =>
      |prefix| < |path| && path[..|prefix|] == prefix && '/' !in path[|prefix|..]
  }

  const StaffRoles: seq<Role> := [Admin, Doctor]
  const AdminOnly: seq<Role> := [Admin]

  /** The route table, in declaration order. */
  function Routes(): (rs: seq<Route>)
    ensures |rs| == 11
    ensures forall i :: 0 <= i < |rs| && rs[i].allowed.Some? ==>
      |rs[i].allowed.value| > 0 && forall r :: r in rs[i].allowed.value ==> r == Admin || r == Doctor
    ensures forall i :: 0 <= i < |rs| && rs[i].allowed.Some? ==> Admin in rs[i].allowed.value
    ensures forall i :: 0 <= i < |rs| ==> rs[i].page != NotFound
  {
    [ Route(Exact("/"), None, HomePage),
      Route(Exact("/agendar-cita"), None, BookingPage),
      Route(Exact("/admin/login"), None, LoginPage),
      Route(Exact("/admin/dashboard"), Some(StaffRoles), Dashboard),
      Route(Exact("/admin/doctores"), Some(AdminOnly), Doctors),
      Route(Exact("/admin/pacientes"), Some(AdminOnly), Patients),
      Route(WithParam("/admin/pacientes/"), Some(AdminOnly), PatientProfile),
      Route(Exact("/admin/appointments"), Some(StaffRoles), Appointments),
      Route(Exact("/admin/administration"), Some(AdminOnly), UnderConstruction),
      Route(Exact("/admin/help"), Some(StaffRoles), UnderConstruction),
      Route(Exact("/admin/settings"), Some(StaffRoles), UnderConstruction) ]
  }

  /** The index of the first route of `rs` that matches `path`, if any. */
  function FirstMatch(rs: seq<Route>, path: string): (k: Option<nat>)
    ensures k.Some? ==> k.value < |rs| && Matches(rs[k.value].pattern, path)
    ensures k.Some? ==> forall j :: 0 <= j < k.value ==> !Matches(rs[j].pattern, path)
    ensures k.None? <==> forall i :: 0 <= i < |rs| ==> !Matches(rs[i].pattern, path)
  {
    if rs == [] then None
    else if Matches(rs[0].pattern, path) then Some(0)
    else
      var k := FirstMatch(rs[1..], path);
      if k.None? then None else Some(k.value + 1)
  }

  /** The route a path gets: the first matching route, or the catch-all showing the not-found page. */
  function Resolve(path: string): (r: Route)
    ensures FirstMatch(Routes(), path).None? ==> r == Route(Exact("*"), None, NotFound)
    ensures FirstMatch(Routes(), path).Some? ==> r == Routes()[FirstMatch(Routes(), path).value] && r.page != NotFound
    ensures r.page == NotFound <==> forall i :: 0 <= i < |Routes()| ==> !Matches(Routes()[i].pattern, path)
  {
    var k := FirstMatch(Routes(), path);
    if k.None? then Route(Exact("*"), None, NotFound) else Routes()[k.value]
  }

  /** A route matching `path` with no matching route before it is the one the path gets. */
  lemma ResolvesTo(path: string, k: nat)
    requires k < |Routes()| && Matches(Routes()[k].pattern, path)
    requires forall j :: 0 <= j < k ==> !Matches(Routes()[j].pattern, path)
    ensures Resolve(path) == Routes()[k]
  {
  }

  /**
   * No path matches two routes of the table: the literal paths are distinct, and none of
   * them is a patient's profile path.
   */
  lemma AtMostOneRouteMatches(path: string, i: nat, j: nat)
    requires i < j < |Routes()|
    ensures Matches(Routes()[i].pattern, path) ==> !Matches(Routes()[j].pattern, path)
  {
    var rs := Routes();
    if rs[i].pattern.Exact? && rs[j].pattern.Exact? {
      assert rs[i].pattern.path != rs[j].pattern.path;
    } else {
      var k := if rs[i].pattern.Exact? then i else j;
      assert rs[k].pattern.Exact?;
      var s := rs[k].pattern.path;
      assert |s| <= 17 || s[7] != 'p';
      if |s| > 17 {
        NotPatientProfilePath(s);
      }
    }
  }

  /**
   * Any route matching a path is the one it gets, so taking the first match in declaration
   * order agrees with ranking the routes by how specific they are.
   */
  lemma OnlyMatchResolves(path: string, k: nat)
    requires k < |Routes()| && Matches(Routes()[k].pattern, path)
    ensures Resolve(path) == Routes()[k]
  {
    forall j | 0 <= j < k
      ensures !Matches(Routes()[j].pattern, path)
    {
      AtMostOneRouteMatches(path, j, k);
    }
    ResolvesTo(path, k);
  }

  /** What a visitor sees on a path. */
  datatype Visit = Shown(page: Page) | Guarded(screen: ProtectedRoute.Screen, page: Page)

  function Show(path: string, v: AuthView): (s: Visit)
    ensures Resolve(path).allowed.None? ==> s == Shown(Resolve(path).page)
    ensures Resolve(path).allowed.Some? ==> s == Guarded(ProtectedRoute.Render(v, Resolve(path).allowed), Resolve(path).page)
  {
    var r := Resolve(path);
    if r.allowed.None? then Shown(r.page) else Guarded(ProtectedRoute.Render(v, r.allowed), r.page)
  }

  /** The public site, the booking form and the login page have no guard. */
  lemma PublicPaths()
    ensures Resolve("/") == Route(Exact("/"), None, HomePage)
    ensures Resolve("/agendar-cita") == Route(Exact("/agendar-cita"), None, BookingPage)
    ensures Resolve("/admin/login") == Route(Exact("/admin/login"), None, LoginPage)
  {
    ResolvesTo("/", 0);
    ResolvesTo("/agendar-cita", 1);
    ResolvesTo("/admin/login", 2);
  }

  /** A path whose eighth character is not the `p` of `pacientes` is not a patient's profile path. */
  lemma NotPatientProfilePath(path: string)
    requires |path| > 7 && path[7] != 'p'
    ensures !Matches(WithParam("/admin/pacientes/"), path)
  {
    assert "/admin/pacientes/"[7] == 'p';
  }

  /** The doctors page admits only admins. */
  lemma DoctorsPath()
    ensures Resolve("/admin/doctores").allowed == Some([Admin])
  {
    ResolvesTo("/admin/doctores", 4);
  }

  /** The patients page admits only admins. */
  lemma PatientsPath()
    ensures Resolve("/admin/pacientes").allowed == Some([Admin])
  {
    ResolvesTo("/admin/pacientes", 5);
  }

  /** A patient's profile, `/admin/pacientes/:id` for any non-empty id without a slash, admits only admins. */
  lemma PatientProfilePath(id: string)
    requires id != [] && '/' !in id
    ensures Resolve("/admin/pacientes/" + id) == Route(WithParam("/admin/pacientes/"), Some([Admin]), PatientProfile)
  {
    var path := "/admin/pacientes/" + id;
    assert path[..17] == "/admin/pacientes/" && path[17..] == id;
    ResolvesTo(path, 6);
  }

  /** Administration admits only admins. */
  lemma AdministrationPath()
    ensures Resolve("/admin/administration").allowed == Some([Admin])
  {
    NotPatientProfilePath("/admin/administration");
    ResolvesTo("/admin/administration", 8);
  }

  /** The dashboard admits admins and doctors. */
  lemma DashboardPath()
    ensures Resolve("/admin/dashboard").allowed == Some([Admin, Doctor])
  {
    ResolvesTo("/admin/dashboard", 3);
  }

  /** The appointments page admits admins and doctors. */
  lemma AppointmentsPath()
    ensures Resolve("/admin/appointments").allowed == Some([Admin, Doctor])
  {
    NotPatientProfilePath("/admin/appointments");
    ResolvesTo("/admin/appointments", 7);
  }

  /** Help admits admins and doctors. */
  lemma HelpPath()
    ensures Resolve("/admin/help").allowed == Some([Admin, Doctor])
  {
    ResolvesTo("/admin/help", 9);
  }

  /** Settings admits admins and doctors. */
  lemma SettingsPath()
    ensures Resolve("/admin/settings").allowed == Some([Admin, Doctor])
  {
    ResolvesTo("/admin/settings", 10);
  }

  /** A doctor's session on the doctors page is sent to the login page and told it has no permission. */
  lemma DoctorKeptOutOfDoctors(v: AuthView)
    requires !v.loading && v.session.Some? && v.profile.Some? && v.profile.value.role == Doctor
    ensures ProtectedRoute.Navigation(v, Resolve("/admin/doctores").allowed) == Some(ProtectedRoute.LoginPath)
    ensures Show("/admin/doctores", v) == Guarded(ProtectedRoute.NoPermission, Doctors)
  {
    ResolvesTo("/admin/doctores", 4);
  }

  /** A session whose profile is missing passes the dashboard's guard and gets the no-role message. */
  lemma MissingProfileOnDashboard(v: AuthView)
    requires !v.loading && v.session.Some? && v.profile.None?
    ensures Show("/admin/dashboard", v) == Guarded(ProtectedRoute.Children, Dashboard)
    ensures DashboardPage.Dispatch(v) == DashboardPage.NoRoleMessage
  {
    ResolvesTo("/admin/dashboard", 3);
  }

  /** A path that no route matches, such as an unknown one under the staff area, shows the not-found page with no guard. */
  lemma UnknownStaffPath(v: AuthView)
    ensures Show("/admin/unknown", v) == Shown(NotFound)
  {
    var rs := Routes();
    assert forall i :: 0 <= i < |rs| ==> !Matches(rs[i].pattern, "/admin/unknown");
  }
}

=== FILE: appointment_calendar.dfy ===
/**
 * The staff calendar: one colour per doctor, cycling through a fixed palette by the
 * doctor's position in the list, and one calendar event per appointment.
 */
module AppointmentCalendar {
  import opened Wrappers
  import opened Types

  /** The eight doctor colours, in order. */
  const Palette: seq<string> := ["#4A90E2", "#50E3C2", "#F5A623", "#F8E71C", "#D0021B", "#9013FE", "#7ED321", "#BD10E0"]

  /** The colour of an appointment with no doctor. */
  const Grey: string := "#808080"

  lemma PaletteFacts()
    ensures |Palette| == 8 && Grey !in Palette
  {
  }

  /**
   * The colour map as the loop leaves it: the doctor at position i gets palette colour
   * i mod 8, and a later row with the same id overwrites an earlier one.
   */
  function ColorMap(ds: seq<Profile>): (m: map<Id, string>)
    ensures forall k :: k in m <==> exists i :: 0 <= i < |ds| && ds[i].id == k
    ensures forall k :: k in m ==> m[k] in Palette
  {
    if ds == [] then map[]
    else
      var n := |ds| - 1;
      var m := ColorMap(ds[..n]);
      assert forall i :: 0 <= i < n ==> ds[..n][i] == ds[i];
      m[ds[n].id := Palette[n % |Palette|]]
  }

  /** A doctor's colour is the palette entry of the last position its id appears at. */
  lemma {:induction false} ColorOfLastPosition(ds: seq<Profile>, i: nat)
    requires i < |ds|
    requires forall j :: i < j < |ds| ==> ds[j].id != ds[i].id
    ensures ds[i].id in ColorMap(ds) && ColorMap(ds)[ds[i].id] == Palette[i % 8]
  {
    if i < |ds| - 1 {
      var init := ds[..|ds| - 1];
      assert forall j :: i < j < |init| ==> init[j] == ds[j];
      ColorOfLastPosition(init, i);
    }
  }

  /** With distinct ids, the doctors eight positions apart share a colour. */
  lemma EightApartShareColor(ds: seq<Profile>, i: nat)
    requires i + 8 < |ds|
    requires forall j, k :: 0 <= j < k < |ds| ==> ds[j].id != ds[k].id
    ensures ColorMap(ds)[ds[i].id] == ColorMap(ds)[ds[i + 8].id]
  {
    ColorOfLastPosition(ds, i);
    ColorOfLastPosition(ds, i + 8);
  }

  /** The `forEach((doc, index) => ...)` that fills the colour map. */
  method AssignColors(ds: seq<Profile>) returns (colors: map<Id, string>)
    ensures colors == ColorMap(ds)
  {
    colors := map[];
    var index := 0;
    while index < |ds|
      invariant 0 <= index <= |ds|
      invariant colors == ColorMap(ds[..index])
    {
      assert ds[..index + 1][..index] == ds[..index];
      colors := colors[ds[index].id := Palette[index % |Palette|]];
      index := index + 1;
    }
    assert ds[..|ds|] == ds;
  }

  /** A calendar event; a colour is `None` when the doctor id has no entry in the map. */
  datatype Event = Event(
    id: Id,
    title: string,
    start: Millis,
    allDay: bool,
    backgroundColor: Option<string>,
    borderColor: Option<string>,
    specialty: string,
    status: Status,
    notes: Option<string>,
    doctorName: Option<string>)

  /** The event of one appointment. */
  function ToEvent(a: Appointment, colors: map<Id, string>): (e: Event)
    ensures e.id == a.id && e.title == a.fullName && e.start == a.appointmentDate && !e.allDay
    ensures e.backgroundColor == e.borderColor
    ensures !Present(a.doctorId) ==> e.backgroundColor == Some(Grey)
    ensures Present(a.doctorId) && a.doctorId.value in colors ==> e.backgroundColor == Some(colors[a.doctorId.value])
    ensures Present(a.doctorId) && a.doctorId.value !in colors ==> e.backgroundColor.None?
    ensures e.specialty == a.specialty && e.status == a.status && e.notes == a.notes && e.doctorName == a.doctor
  {
    var color := if !Present(a.doctorId) then Some(Grey)
      else if a.doctorId.value in colors then Some(colors[a.doctorId.value]) else None;
    Event(a.id, a.fullName, a.appointmentDate, false, color, color, a.specialty, a.status, a.notes, a.doctor)
  }

  /** With the map built from the doctor rows, an event is grey exactly when its appointment has no doctor. */
  lemma GreyIffNoDoctor(a: Appointment, ds: seq<Profile>)
    ensures ToEvent(a, ColorMap(ds)).backgroundColor == Some(Grey) <==> !Present(a.doctorId)
  {
    PaletteFacts();
  }

  /** One event per appointment, in the same order. */
  function ToEvents(apts: seq<Appointment>, colors: map<Id, string>): (es: seq<Event>)
    ensures |es| == |apts|
    ensures forall i :: 0 <= i < |apts| ==> es[i].id == apts[i].id && es[i].title == apts[i].fullName && !es[i].allDay
    ensures forall i :: 0 <= i < |apts| ==> es[i] == ToEvent(apts[i], colors)
  {
    seq(|apts|, i requires 0 <= i < |apts| => ToEvent(apts[i], colors))
  }

  class Calendar {
    var events: seq<Event>
    var doctorColors: map<Id, string>

    constructor ()
      ensures events == [] && doctorColors == map[]
    {
      events := [];
      doctorColors := map[];
    }

    /**
     * Read the doctors; an error ends the load before the appointments are read, with
     * nothing changed. Otherwise the colour map is rebuilt, then the appointments are
     * read: on success the events are rebuilt, on error they are kept.
     */
    method Load(doctorsReply: Reply<seq<Profile>>, appointmentsReply: Reply<seq<Appointment>>)
      returns (appointmentsRead: bool)
      modifies this
      ensures appointmentsRead <==> doctorsReply.Data?
      ensures doctorsReply.Error? ==> events == old(events) && doctorColors == old(doctorColors)
      ensures doctorsReply.Data? ==> doctorColors == ColorMap(doctorsReply.value)
      ensures doctorsReply.Data? ==>
        events == (if appointmentsReply.Data? then ToEvents(appointmentsReply.value, doctorColors) else old(events))
    {
      if doctorsReply.Error? {
        return false;
      }
      var colors := AssignColors(doctorsReply.value);
      doctorColors := colors;
      appointmentsRead := true;
      if appointmentsReply.Data? {
        events := ToEvents(appointmentsReply.value, colors);
      }
    }
  }
}

=== FILE: appointment_edit_modal.dfy ===
/**
 * The staff dialog for one appointment: the doctor and status pickers, "save", and
 * "create patient", which links the appointment to a patient found or created by email
 * and confirms it.
 */
module AppointmentEditModal {
  import opened Wrappers
  import opened Types
  import opened Backend

  /** The status picker's options, value and label, in display order. */
  function StatusOptions(): (options: seq<(Status, string)>)
    ensures |options| == 3
    ensures (set i | 0 <= i < |options| :: options[i].0) == {Pending, Confirmed, Cancelled}
    ensures forall i, j :: 0 <= i < j < |options| ==> options[i].0 != options[j].0
  {
    var options := [(Pending, "Pendiente"), (Confirmed, "Confirmada"), (Cancelled, "Cancelada")];
    assert options[0].0 == Pending && options[1].0 == Confirmed && options[2].0 == Cancelled;
    options
  }

  /** What became of "create patient". */
  datatype LinkResult = LookupFailed | PatientInsertFailed | UpdateFailed | Linked(patientId: Id)

  /** "Create patient" is offered only for an appointment with no linked patient. */
  function CreatePatientShown(a: Appointment): (shown: bool)
    ensures shown <==> a.patientId.None? || a.patientId == Some("")
  {
    !Present(a.patientId)
  }

  class EditDialog {
    var selectedDoctorId: Option<Id>
    var selectedStatus: Option<Status>
    var doctors: seq<Profile>
    var isSubmitting: bool

    constructor ()
      ensures selectedDoctorId.None? && selectedStatus.None? && doctors == [] && !isSubmitting
    {
      selectedDoctorId := None;
      selectedStatus := None;
      doctors := [];
      isSubmitting := false;
    }

    /** The "create patient" button is enabled only with a doctor selected and no request running. */
    function CreatePatientEnabled(): (enabled: bool)
      reads this
      ensures enabled <==> Present(selectedDoctorId) && !isSubmitting
    {
      !isSubmitting && Present(selectedDoctorId)
    }

    /** Opening on an appointment selects its doctor (an empty id selects none) and its status. */
    method Open(appointment: Option<Appointment>)
      modifies this
      ensures appointment.Some? ==>
        selectedDoctorId == (if Present(appointment.value.doctorId) then appointment.value.doctorId else None) &&
        selectedStatus == Some(appointment.value.status)
      ensures appointment.None? ==> selectedDoctorId == old(selectedDoctorId) && selectedStatus == old(selectedStatus)
      ensures doctors == old(doctors) && isSubmitting == old(isSubmitting)
    {
      if appointment.Some? {
        var a := appointment.value;
        selectedDoctorId := if Present(a.doctorId) then a.doctorId else None;
        selectedStatus := Some(a.status);
      }
    }

    /** The doctors fetch: replaced on success, kept on error. */
    method LoadDoctors(reply: Reply<seq<Profile>>)
      modifies this
      ensures doctors == (if reply.Data? then reply.value else old(doctors))
      ensures selectedDoctorId == old(selectedDoctorId) && selectedStatus == old(selectedStatus)
      ensures isSubmitting == old(isSubmitting)
    {
      if reply.Data? {
        doctors := reply.value;
      }
    }

    /**
     * Save: one update of this appointment writing the selected doctor and status; an
     * unselected one is a key not sent, so the column keeps its value.
     */
    method SaveChanges(db: Db, appointment: Appointment, update: Outcome) returns (db': Db, saved: bool)
      modifies this
      ensures saved <==> update.Ok?
      ensures !saved ==> db' == db
      ensures saved ==> db' == UpdateAppointment(db, appointment.id, AppointmentPatch(selectedDoctorId, selectedStatus, None))
      ensures db'.patients == db.patients && |db'.appointments| == |db.appointments|
      ensures forall i :: 0 <= i < |db.appointments| && db.appointments[i].id != appointment.id ==>
        db'.appointments[i] == db.appointments[i]
      ensures forall i :: 0 <= i < |db.appointments| ==> db'.appointments[i].patientId == db.appointments[i].patientId
      ensures !isSubmitting
      ensures selectedDoctorId == old(selectedDoctorId) && selectedStatus == old(selectedStatus) && doctors == old(doctors)
    {
      isSubmitting := true;
      if update.Ok? {
        db' := UpdateAppointment(db, appointment.id, AppointmentPatch(selectedDoctorId, selectedStatus, None));
        saved := true;
      } else {
        db' := db;
        saved := false;
      }
      isSubmitting := false;
    }

    /**
     * Create patient: look the appointment's email up; a lookup error ends the action with
     * nothing written. A found patient is reused; otherwise one is inserted from the
     * appointment's name, email and phone, and a failed insert ends the action with
     * nothing written. The appointment is then set to confirmed and linked; the selected
     * doctor is not written.
     */
    method CreatePatient(db: Db, appointment: Appointment, lookup: Outcome, insert: Outcome, newPatientId: Id,
                         update: Outcome, now: Millis)
      returns (db': Db, result: LinkResult)
      modifies this
      ensures lookup.Failed? || FindByEmail(db.patients, appointment.email).LookupError? ==>
        result == LookupFailed && db' == db
      ensures lookup.Ok? && FindByEmail(db.patients, appointment.email).Row? ==>
        db'.patients == db.patients && result != PatientInsertFailed && result != LookupFailed
      ensures result == LookupFailed <==> lookup.Failed? || FindByEmail(db.patients, appointment.email).LookupError?
      ensures result == PatientInsertFailed <==>
        lookup.Ok? && FindByEmail(db.patients, appointment.email).NoRow? && insert.Failed?
      ensures result == PatientInsertFailed ==> db' == db && insert.Failed?
      ensures result.Linked? ==> (result.patientId ==
        if FindByEmail(db.patients, appointment.email).Row? then FindByEmail(db.patients, appointment.email).id
        else newPatientId)
      ensures lookup.Ok? && FindByEmail(db.patients, appointment.email).NoRow? && insert.Ok? ==> (
        |db'.patients| == |db.patients| + 1 && db'.patients[..|db.patients|] == db.patients &&
        db'.patients[|db.patients|] ==
          Patient(newPatientId, appointment.fullName, appointment.email, appointment.phone, now, None, None, None))
      ensures EmailsUnique(db.patients) ==> EmailsUnique(db'.patients)
      ensures result != UpdateFailed && !result.Linked? ==> db'.appointments == db.appointments
      ensures result.Linked? <==> update.Ok? && result != LookupFailed && result != PatientInsertFailed
      ensures result.Linked? ==> |db'.appointments| == |db.appointments| && forall i :: 0 <= i < |db.appointments| ==>
        db'.appointments[i] == if db.appointments[i].id == appointment.id
          then db.appointments[i].(status := Confirmed, patientId := Some(result.patientId))
          else db.appointments[i]
      ensures result == UpdateFailed ==> db'.appointments == db.appointments
      ensures !isSubmitting
      ensures selectedDoctorId == old(selectedDoctorId) && selectedStatus == old(selectedStatus) && doctors == old(doctors)
    {
      isSubmitting := true;
      db' := db;
      var existing := if lookup.Ok? then FindByEmail(db.patients, appointment.email) else LookupError;
      if existing.LookupError? {
        isSubmitting := false;
        return db, LookupFailed;
      }
      var patientId: Id;
      if existing.Row? {
        patientId := existing.id;
      } else {
        if insert.Failed? {
          isSubmitting := false;
          return db, PatientInsertFailed;
        }
        db' := InsertPatient(db, PatientFields(appointment.fullName, appointment.email, appointment.phone), newPatientId, now);
        assert db'.patients == db.patients + [db'.patients[|db.patients|]];
        patientId := newPatientId;
      }
      if update.Failed? {
        isSubmitting := false;
        return db', UpdateFailed;
      }
      db' := UpdateAppointment(db', appointment.id, AppointmentPatch(None, Some(Confirmed), Some(patientId)));
      result := Linked(patientId);
      isSubmitting := false;
    }
  }
}

=== FILE: appointment_page.dfy ===
/**
 * The public booking page: the form schema, the doctor list filtered by specialty,
 * the reset of dependent fields when the specialty changes, and the submit handler
 * that turns the chosen day and "HH:MM" slot into an instant and inserts the request.
 */
module AppointmentPage {
  import opened Wrappers
  import opened Types
  import opened Backend
  import opened TimeSelector

  // ---- text helpers: `split`, `Number`, the email check ----

  /** `s.split(c)`: the pieces between separators, always at least one (possibly empty). */
  function SplitOn(s: string, c: char): (pieces: seq<string>)
    ensures |pieces| >= 1
    ensures forall i :: 0 <= i < |pieces| ==> c !in pieces[i]
  {
    if s == [] then [""]
    else if s[0] == c then [""] + SplitOn(s[1..], c)
    else
      var rest := SplitOn(s[1..], c);
      [[s[0]] + rest[0]] + rest[1..]
  }

  /** `pieces.join(c)`. */
  function JoinWith(pieces: seq<string>, c: char): string
    requires |pieces| >= 1
  {
    if |pieces| == 1 then pieces[0] else pieces[0] + [c] + JoinWith(pieces[1..], c)
  }

  /** Joining the pieces with the separator gives the text back. */
  lemma {:induction false} SplitJoinRoundTrip(s: string, c: char)
    ensures JoinWith(SplitOn(s, c), c) == s
  {
    if s != [] {
      SplitJoinRoundTrip(s[1..], c);
      var rest := SplitOn(s[1..], c);
      if s[0] != c {
        if |rest| == 1 {
          assert [s[0]] + rest[0] == s;
        } else {
          assert JoinWith(SplitOn(s, c), c) == [s[0]] + rest[0] + [c] + JoinWith(rest[1..], c);
        }
      }
    }
  }

  /** A piece without the separator, the separator, then the rest: the piece comes first. */
  lemma {:induction false} SplitAtFirst(x: string, c: char, y: string)
    requires c !in x
    ensures SplitOn(x + [c] + y, c) == [x] + SplitOn(y, c)
  {
    if x != [] {
      assert x[0] in x;
      assert (x + [c] + y)[1..] == x[1..] + [c] + y;
      SplitAtFirst(x[1..], c, y);
      assert [x[0]] + x[1..] == x;
    } else {
      assert x + [c] + y == [c] + y;
    }
  }

  lemma {:induction false} SplitNone(x: string, c: char)
    requires c !in x
    ensures SplitOn(x, c) == [x]
  {
    if x != [] {
      assert x[0] in x;
      SplitNone(x[1..], c);
      assert [x[0]] + x[1..] == x;
    }
  }

  function DigitValue(c: char): int
  {
    c as int - '0' as int
  }

  predicate AllDigits(s: string)
  {
    forall i :: 0 <= i < |s| ==> IsDigit(s[i])
  }

  /** The value of a string of decimal digits, most significant first. */
  function DigitsValue(s: string): (v: nat)
    requires AllDigits(s)
  {
    if s == [] then 0 else DigitsValue(s[..|s| - 1]) * 10 + DigitValue(s[|s| - 1])
  }

  /**
   * `Number(s)` for the texts a time field can hold: "" is 0, a run of decimal digits is
   * its value, anything else is NaN (`None`).
   */
  function NumberOf(s: string): (r: Option<int>)
    ensures s == "" ==> r == Some(0)
    ensures r.Some? ==> r.value >= 0
    ensures r.None? <==> exists i :: 0 <= i < |s| && !IsDigit(s[i])
  {
    if AllDigits(s) then Some(DigitsValue(s)) else None
  }

  /** `Number(String(n)) == n`: printing a number in decimal and reading it back gives it back. */
  lemma {:induction false} DecimalTextRoundTrip(n: nat)
    ensures AllDigits(DecimalText(n))
    ensures DigitsValue(DecimalText(n)) == n
  {
    if n >= 10 {
      DecimalTextRoundTrip(n / 10);
      var s := DecimalText(n);
      assert s[..|s| - 1] == DecimalText(n / 10);
      DigitCharInjective(n % 10, 0);
    } else {
      DigitCharInjective(n, 0);
    }
  }

  /** A zero-padded two-digit field reads back as its number. */
  lemma TwoDigitsValue(n: nat)
    requires n < 100
    ensures AllDigits(TwoDigits(n)) && NumberOf(TwoDigits(n)) == Some(n)
  {
    var s := TwoDigits(n);
    DigitCharInjective(n / 10, 0);
    DigitCharInjective(n % 10, 0);
    assert AllDigits(s);
    assert s[..1] == [DigitChar(n / 10)] && s[..1][..0] == [];
    assert DigitsValue(s[..1]) == n / 10;
    assert DigitsValue(s) == (n / 10) * 10 + n % 10;
  }

  /**
   * A simplified `z.string().email()`: one '@' with a non-empty local part, and a domain
   * of at least two non-empty dot-separated labels, the last of at least two characters.
   */
  predicate ValidEmail(e: string)
  {
    var parts := SplitOn(e, '@');
    |parts| == 2 && |parts[0]| > 0 &&
    var labels := SplitOn(parts[1], '.');
    |labels| >= 2 && |labels[|labels| - 1]| >= 2 &&
    forall i :: 0 <= i < |labels| ==> |labels[i]| > 0
  }

  // ---- form schema ----

  /** The form's field values; an untouched field is `undefined` (`None`). */
  datatype BookingForm = BookingForm(
    fullName: Option<string>,
    email: Option<string>,
    phone: Option<string>,
    notes: Option<string>,
    specialty: Option<string>,
    doctorId: Option<string>,
    date: Option<int>,
    time: Option<string>)

  /** A form with every field `undefined`, as after `form.reset()` without defaults. */
  function EmptyForm(): BookingForm
  {
    BookingForm(None, None, None, None, None, None, None, None)
  }

  /** The values handed to the submit handler once the schema accepts the form. */
  datatype Submission = Submission(
    fullName: string,
    email: string,
    phone: Option<string>,
    notes: Option<string>,
    specialty: string,
    doctorId: string,
    day: int,
    time: string)

  /**
   * JavaScript's `.length` of a text: UTF-16 code units, so a character outside the
   * basic multilingual plane counts twice.
   */
  function Utf16Length(s: string): (n: nat)
    ensures |s| <= n <= 2 * |s|
    ensures n == |s| <==> forall i :: 0 <= i < |s| ==> (s[i] as int) < 0x10000
  {
    if s == [] then 0
    else (if (s[0] as int) >= 0x10000 then 2 else 1) + Utf16Length(s[1..])
  }

  lemma {:induction false} Utf16LengthAppend(a: string, b: string)
    ensures Utf16Length(a + b) == Utf16Length(a) + Utf16Length(b)
  {
    if a == [] {
      assert a + b == b;
    } else {
      assert (a + b)[1..] == a[1..] + b;
      Utf16LengthAppend(a[1..], b);
    }
  }

  /** A two-character name with one astral character is three code units long, so it meets `min(3)`. */
  lemma AstralNameMeetsMinimum()
    ensures |"\U{20BB7}\U{7530}"| == 2 && Utf16Length("\U{20BB7}\U{7530}") == 3
  {
    Utf16LengthAppend("\U{20BB7}", "\U{7530}");
    assert "\U{20BB7}" + "\U{7530}" == "\U{20BB7}\U{7530}";
  }

  /** That name never draws the too-short complaint, whatever the other fields hold. */
  lemma AstralNameNotTooShort(f: BookingForm)
    requires f.fullName == Some("\U{20BB7}\U{7530}")
    ensures NameTooShort !in Issues(f)
  {
    AstralNameMeetsMinimum();
  }

  datatype Field = FullName | Email | Specialty | DoctorId | Date | Time

  /** A schema complaint: a required field missing, a name under three characters, a bad email. */
  datatype Issue = Required(field: Field) | NameTooShort | BadEmail

  /** The issues the schema reports for a form, field by field in schema order. */
  function Issues(f: BookingForm): seq<Issue>
  {
    (if f.fullName.None? then [Required(FullName)] else if Utf16Length(f.fullName.value) < 3 then [NameTooShort] else []) +
    (if f.email.None? then [Required(Email)] else if !ValidEmail(f.email.value) then [BadEmail] else []) +
    (if f.specialty.None? then [Required(Specialty)] else []) +
    (if f.doctorId.None? then [Required(DoctorId)] else []) +
    (if f.date.None? then [Required(Date)] else []) +
    (if f.time.None? then [Required(Time)] else [])
  }

  /**
   * The schema: a name of at least three UTF-16 code units, a valid email, and specialty,
   * doctor, date and time all present. A present string field is accepted even when
   * empty, as `z.string()` accepts "".
   */
  predicate SchemaAccepts(f: BookingForm)
  {
    f.fullName.Some? && Utf16Length(f.fullName.value) >= 3 &&
    f.email.Some? && ValidEmail(f.email.value) &&
    f.specialty.Some? && f.doctorId.Some? && f.date.Some? && f.time.Some?
  }

  /** The parsed submission of an accepted form, or the issues of a rejected one. */
  function Parse(f: BookingForm): (r: Result<Submission, seq<Issue>>)
    ensures r.Success? <==> SchemaAccepts(f)
    ensures r.Failure? ==> |r.error| > 0
    ensures r.Success? ==> var v := r.value;
      Some(v.fullName) == f.fullName && Some(v.email) == f.email && v.phone == f.phone && v.notes == f.notes &&
      Some(v.specialty) == f.specialty && Some(v.doctorId) == f.doctorId && Some(v.day) == f.date &&
      Some(v.time) == f.time
  {
    var issues := Issues(f);
    if issues == [] then
      Success(Submission(f.fullName.value, f.email.value, f.phone, f.notes, f.specialty.value,
                         f.doctorId.value, f.date.value, f.time.value))
    else
      Failure(issues)
  }

  // ---- doctor filter ----

  /** A doctor as the booking page loads it: `id, full_name, specialty`. */
  datatype BookingDoctor = BookingDoctor(id: Id, fullName: Option<string>, specialty: Option<string>)

  /** A doctor is offered for a specialty with the same name, or when it has no specialty. */
  predicate OffersSpecialty(d: BookingDoctor, selected: string)
  {
    d.specialty == Some(selected) || !Present(d.specialty)
  }

  /** The doctors offered for the selected specialty, in list order; none without a selection. */
  function FilterDoctors(doctors: seq<BookingDoctor>, selected: Option<string>): (r: seq<BookingDoctor>)
    ensures |r| <= |doctors|
    ensures forall d :: d in r <==> Present(selected) && d in doctors && OffersSpecialty(d, selected.value)
  {
    if !Present(selected) || doctors == [] then []
    else
      var rest := FilterDoctors(doctors[1..], selected);
      if OffersSpecialty(doctors[0], selected.value) then [doctors[0]] + rest else rest
  }

  /** Filtering a concatenation filters each part and keeps them in order. */
  lemma {:induction false} FilterDoctorsAppend(a: seq<BookingDoctor>, b: seq<BookingDoctor>, selected: Option<string>)
    ensures FilterDoctors(a + b, selected) == FilterDoctors(a, selected) + FilterDoctors(b, selected)
  {
    if a != [] && Present(selected) {
      assert (a + b)[1..] == a[1..] + b;
      FilterDoctorsAppend(a[1..], b, selected);
    } else if a == [] {
      assert a + b == b;
    }
  }

  // ---- time of the appointment ----

  /**
   * `time.split(':').map(Number)` destructured into hours and minutes. A missing minutes
   * piece is `undefined`, whose `Number` is NaN; NaN in either makes the date invalid.
   */
  function ParseTime(time: string): (r: Option<(int, int)>)
    ensures r.Some? ==> r.value.0 >= 0 && r.value.1 >= 0
    ensures ':' !in time ==> r.None?
  {
    var pieces := SplitOn(time, ':');
    if ':' !in time then
      SplitNone(time, ':');
      None
    else if |pieces| < 2 then None
    else
      var h := NumberOf(pieces[0]);
      var m := NumberOf(pieces[1]);
      if h.Some? && m.Some? then Some((h.value, m.value)) else None
  }

  /** `new Date(date).setHours(h, m, 0, 0)`: the day's midnight plus h hours and m minutes. */
  function CombineDateTime(day: int, h: int, m: int): (t: Millis)
    ensures 0 <= h < 24 && 0 <= m < 60 ==> DayOf(t) == day
  {
    StartOfDay(day) + h * MsPerHour + m * MsPerMinute
  }

  /** Every clock text reads back as its hour and minute. */
  lemma ClockTextParses(minute: nat)
    requires minute < 1440
    ensures ParseTime(ClockText(minute)) == Some((minute / 60, minute % 60))
  {
    ClockTextChars(minute);
    var hh, mm := TwoDigits(minute / 60), TwoDigits(minute % 60);
    assert ':' !in hh && ':' !in mm;
    SplitAtFirst(hh, ':', mm);
    SplitNone(mm, ':');
    assert ClockText(minute) == hh + [':'] + mm;
    TwoDigitsValue(minute / 60);
    TwoDigitsValue(minute % 60);
  }

  /** A slot picked on a day gives the instant of that slot on that day. */
  lemma SlotTimeOnDay(day: int, k: nat)
    requires k < SlotCount
    ensures ParseTime(SlotTable()[k]).Some?
    ensures var hm := ParseTime(SlotTable()[k]).value;
      CombineDateTime(day, hm.0, hm.1) == StartOfDay(day) + SlotMinute(k) * MsPerMinute &&
      DayOf(CombineDateTime(day, hm.0, hm.1)) == day
  {
    SlotsUpToAt(SlotCount, k);
    ClockTextParses(SlotMinute(k));
  }

  /** The insert payload: the form's fields, the combined instant, and no status. */
  function BookingPayload(v: Submission, at: Millis): (a: NewAppointment)
    ensures a.status.None? && a.patientId.None?
    ensures a.fullName == v.fullName && a.email == v.email && a.phone == v.phone && a.notes == v.notes
    ensures a.specialty == v.specialty && a.doctorId == Some(v.doctorId) && a.appointmentDate == at
  {
    NewAppointment(v.fullName, v.email, v.phone, v.specialty, Some(v.doctorId), at, v.notes, None, None)
  }

  /**
   * After a specialty change the time field holds "", which the schema accepts but which
   * has no minutes piece, so a submit with that value sends nothing.
   */
  lemma ResetTimePassesSchemaButNeverParses(f: BookingForm)
    requires SchemaAccepts(f)
    ensures SchemaAccepts(f.(time := Some(""))) && Parse(f.(time := Some(""))).Success?
    ensures ParseTime(Parse(f.(time := Some(""))).value.time).None?
  {
  }

  // ---- page state ----

  /** What became of a submit. */
  datatype SubmitOutcome = NotSubmitted | Thrown | Booked | InsertFailed

  class BookingPage {
    var doctors: seq<BookingDoctor>
    var filteredDoctors: seq<BookingDoctor>
    var loadingDoctors: bool
    var isSubmitting: bool
    var form: BookingForm

    constructor ()
      ensures doctors == [] && filteredDoctors == [] && !loadingDoctors && !isSubmitting
      ensures form == EmptyForm()
    {
      doctors := [];
      filteredDoctors := [];
      loadingDoctors := false;
      isSubmitting := false;
      form := EmptyForm();
    }

    /** The doctors fetch: the list is replaced on success and kept on error. */
    method LoadDoctors(reply: Reply<seq<BookingDoctor>>)
      modifies this
      ensures doctors == (if reply.Data? then reply.value else old(doctors))
      ensures !loadingDoctors
      ensures filteredDoctors == old(filteredDoctors) && form == old(form) && isSubmitting == old(isSubmitting)
    {
      loadingDoctors := true;
      if reply.Data? {
        doctors := reply.value;
      }
      loadingDoctors := false;
    }

    /**
     * The specialty effect: with a specialty the doctor list is filtered and doctor, date
     * and time are reset; without one the list is empty and nothing is reset.
     */
    method SpecialtyChanged()
      modifies this
      ensures filteredDoctors == FilterDoctors(doctors, form.specialty)
      ensures Present(old(form.specialty)) ==>
        form == old(form).(doctorId := Some(""), date := None, time := Some(""))
      ensures !Present(old(form.specialty)) ==> form == old(form) && filteredDoctors == []
      ensures doctors == old(doctors) && isSubmitting == old(isSubmitting) && loadingDoctors == old(loadingDoctors)
    {
      if Present(form.specialty) {
        filteredDoctors := FilterDoctors(doctors, form.specialty);
        form := form.(doctorId := Some(""), date := None, time := Some(""));
      } else {
        filteredDoctors := [];
      }
    }

    /**
     * Submit: a form the schema rejects never reaches the handler. An unreadable time makes
     * the date invalid and the handler throws with `isSubmitting` still set and nothing sent.
     * Otherwise the appointment is inserted; success resets the form, failure keeps it.
     */
    method Submit(db: Db, insert: Outcome, newId: Id, now: Millis) returns (db': Db, outcome: SubmitOutcome)
      modifies this
      ensures outcome == NotSubmitted <==> !SchemaAccepts(old(form))
      ensures SchemaAccepts(old(form)) ==> (outcome == Thrown <==> ParseTime(old(form).time.value).None?)
      ensures SchemaAccepts(old(form)) && ParseTime(old(form).time.value).Some? ==>
        outcome == (if insert.Ok? then Booked else InsertFailed)
      ensures !SchemaAccepts(old(form)) ==> outcome == NotSubmitted && db' == db && isSubmitting == old(isSubmitting)
      ensures SchemaAccepts(old(form)) && ParseTime(old(form).time.value).None? ==>
        outcome == Thrown && db' == db && isSubmitting
      ensures outcome == Booked ==> (insert.Ok? && form == EmptyForm() && !isSubmitting &&
        var v := Parse(old(form)).value;
        var hm := ParseTime(v.time).value;
        db' == InsertAppointment(db, BookingPayload(v, CombineDateTime(v.day, hm.0, hm.1)), newId, now))
      ensures outcome == InsertFailed ==> insert.Failed? && db' == db && form == old(form) && !isSubmitting
      ensures outcome != NotSubmitted && outcome != Thrown ==> SchemaAccepts(old(form)) && (outcome == Booked <==> insert.Ok?)
      ensures outcome != Booked ==> form == old(form)
      ensures doctors == old(doctors) && filteredDoctors == old(filteredDoctors) && loadingDoctors == old(loadingDoctors)
    {
      var parsed := Parse(form);
      if parsed.Failure? {
        return db, NotSubmitted;
      }
      var v := parsed.value;
      isSubmitting := true;
      var hm := ParseTime(v.time);
      if hm.None? {
        return db, Thrown;
      }
      var at := CombineDateTime(v.day, hm.value.0, hm.value.1);
      if insert.Ok? {
        db' := InsertAppointment(db, BookingPayload(v, at), newId, now);
        form := EmptyForm();
        outcome := Booked;
      } else {
        db' := db;
        outcome := InsertFailed;
      }
      isSubmitting := false;
    }
  }
}

=== FILE: appointments_list.dfy ===
/**
 * The dashboard's list of today's appointments: the day window of the query, the
 * per-row labels and buttons, assigning a doctor, and "confirm and create profile",
 * which always inserts a new patient before confirming.
 */
module AppointmentsList {
  import opened Wrappers
  import opened Types
  import opened Backend

  /** Today's window: from 00:00:00.000 to 23:59:59.999 of the day `now` falls on, both ends included. */
  function TodayWindow(now: Millis): (w: (Millis, Millis))
    ensures w.0 == StartOfDay(DayOf(now)) && w.1 == w.0 + 23 * MsPerHour + 59 * MsPerMinute + 59 * 1000 + 999
    ensures w.0 <= now <= w.1
  {
    var start := StartOfDay(DayOf(now));
    (start, start + 23 * MsPerHour + 59 * MsPerMinute + 59 * 1000 + 999)
  }

  /** An instant lies in today's window exactly when it falls on the same day as `now`. */
  lemma InTodayWindow(t: Millis, now: Millis)
    ensures TodayWindow(now).0 <= t <= TodayWindow(now).1 <==> DayOf(t) == DayOf(now)
  {
    var d, e := DayOf(now), DayOf(t);
    if e < d {
      assert (e + 1) * MsPerDay <= d * MsPerDay;
    } else if e > d {
      assert (d + 1) * MsPerDay <= e * MsPerDay;
    }
  }

  /** The rows the query selects: those whose date lies in today's window, kept in the order given. */
  function TodaysRows(rows: seq<Appointment>, now: Millis): (r: seq<Appointment>)
    ensures forall a :: a in r <==> a in rows && DayOf(a.appointmentDate) == DayOf(now)
  {
    if rows == [] then []
    else
      var rest := TodaysRows(rows[1..], now);
      InTodayWindow(rows[0].appointmentDate, now);
      var w := TodayWindow(now);
      if w.0 <= rows[0].appointmentDate <= w.1 then [rows[0]] + rest else rest
  }

  /** The model's selection keeps the order it is given: it distributes over concatenation. */
  lemma {:induction false} TodaysRowsAppend(a: seq<Appointment>, b: seq<Appointment>, now: Millis)
    ensures TodaysRows(a + b, now) == TodaysRows(a, now) + TodaysRows(b, now)
  {
    if a == [] {
      assert a + b == b;
    } else {
      assert (a + b)[1..] == a[1..] + b;
      TodaysRowsAppend(a[1..], b, now);
    }
  }

  /** The doctor picker is shown only for an appointment without a doctor. */
  function DoctorPickerShown(a: Appointment): (shown: bool)
    ensures shown <==> a.doctorId.None? || a.doctorId == Some("")
  {
    !Present(a.doctorId)
  }

  /** The confirm button is shown only for pending appointments. */
  function ConfirmShown(a: Appointment): (shown: bool)
    ensures shown <==> StatusText(a.status) == "pending"
  {
    a.status == Pending
  }

  /** The confirm button is enabled only once a doctor is assigned. */
  function ConfirmEnabled(a: Appointment): (enabled: bool)
    ensures enabled <==> a.doctorId.Some? && a.doctorId.value != ""
    ensures enabled ==> !DoctorPickerShown(a)
  {
    Present(a.doctorId)
  }

  /** The badge reads "Pendiente" for pending and "Confirmada" for every other status, cancelled included. */
  function BadgeText(s: Status): (text: string)
    ensures text == "Pendiente" <==> s == Pending
    ensures s != Pending ==> text == "Confirmada"
  {
    if s == Pending then "Pendiente" else "Confirmada"
  }

  /** Assign doctor: one update writing only `doctor_id` of this appointment; success reloads the list. */
  method AssignDoctor(db: Db, appointmentId: Id, doctorId: Id, update: Outcome) returns (db': Db, reload: bool)
    ensures reload <==> update.Ok?
    ensures !reload ==> db' == db
    ensures db'.patients == db.patients && |db'.appointments| == |db.appointments|
    ensures forall i :: 0 <= i < |db.appointments| ==>
      db'.appointments[i] == if reload && db.appointments[i].id == appointmentId
        then db.appointments[i].(doctorId := Some(doctorId))
        else db.appointments[i]
  {
    if update.Failed? {
      return db, false;
    }
    db' := UpdateAppointment(db, appointmentId, AppointmentPatch(Some(doctorId), None, None));
    reload := true;
  }

  /**
   * Confirm and create profile: insert a patient from the appointment's name, email and
   * phone with no lookup first; a failed insert ends the action with nothing written.
   * Then set the appointment confirmed and linked to the new patient; success reloads.
   */
  method CreateProfile(db: Db, appointment: Appointment, insert: Outcome, newPatientId: Id, update: Outcome, now: Millis)
    returns (db': Db, reload: bool)
    ensures insert.Failed? ==> db' == db && !reload
    ensures insert.Ok? ==> (|db'.patients| == |db.patients| + 1 && db'.patients[..|db.patients|] == db.patients &&
      db'.patients[|db.patients|] ==
        Patient(newPatientId, appointment.fullName, appointment.email, appointment.phone, now, None, None, None))
    ensures insert.Ok? ==> EmailCount(db'.patients, appointment.email) == EmailCount(db.patients, appointment.email) + 1
    ensures reload <==> insert.Ok? && update.Ok?
    ensures !reload ==> db'.appointments == db.appointments
    ensures reload ==> |db'.appointments| == |db.appointments| && forall i :: 0 <= i < |db.appointments| ==>
      db'.appointments[i] == if db.appointments[i].id == appointment.id
        then db.appointments[i].(status := Confirmed, patientId := Some(newPatientId))
        else db.appointments[i]
  {
    if insert.Failed? {
      return db, false;
    }
    var fields := PatientFields(appointment.fullName, appointment.email, appointment.phone);
    db' := InsertPatient(db, fields, newPatientId, now);
    assert db'.patients == db.patients + [db'.patients[|db.patients|]];
    EmailCountAppend(db.patients, db'.patients[|db.patients|], appointment.email);
    if update.Failed? {
      return db', false;
    }
    db' := UpdateAppointment(db', appointment.id, AppointmentPatch(None, Some(Confirmed), Some(newPatientId)));
    reload := true;
  }

  /**
   * Without a lookup, confirming an appointment whose email already belongs to a patient
   * leaves two patients with that email.
   */
  lemma CreateProfileDuplicates(ps: seq<Patient>, p: Patient, i: nat)
    requires i < |ps| && ps[i].email == p.email
    ensures !EmailsUnique(ps + [p])
  {
    assert (ps + [p])[i].email == (ps + [p])[|ps|].email;
  }

  class TodayList {
    var appointments: seq<Appointment>
    var doctors: seq<Profile>
    var loading: bool
    var error: Option<string>

    constructor ()
      ensures appointments == [] && doctors == [] && loading && error.None?
    {
      appointments := [];
      doctors := [];
      loading := true;
      error := None;
    }

    /**
     * Load today's appointments, then the doctors. Either failure shows the error and keeps
     * both lists as they were; both lists are replaced only when both reads succeed.
     */
    method Reload(db: Db, appointmentsRead: Outcome, doctorsReply: Reply<seq<Profile>>, now: Millis)
      modifies this
      ensures !loading
      ensures appointmentsRead.Ok? && doctorsReply.Data? ==>
        error.None? && appointments == TodaysRows(db.appointments, now) && doctors == doctorsReply.value
      ensures appointmentsRead.Failed? || doctorsReply.Error? ==>
        error == Some("Error al cargar los datos") && appointments == old(appointments) && doctors == old(doctors)
    {
      loading := true;
      error := None;
      if appointmentsRead.Failed? || doctorsReply.Error? {
        error := Some("Error al cargar los datos");
      } else {
        appointments := TodaysRows(db.appointments, now);
        doctors := doctorsReply.value;
      }
      loading := false;
    }
  }
}

=== FILE: appointments_page.dfy ===
/**
 * The staff appointments screen: every appointment joined with its doctor's name, the
 * status badge with its fallback for unknown statuses, and the list/calendar switch
 * that decides whether anything is fetched.
 */
module AppointmentsPage {
  import opened Wrappers
  import opened Types

  /**
   * `new Map(doctors.map(doc => [doc.id, doc.full_name]))`: one entry per id, the later
   * row overwriting an earlier one with the same id; a null name is stored as it is.
   */
  function EntryMap(ds: seq<Profile>): (m: map<Id, Option<string>>)
    ensures forall k :: k in m <==> exists i :: 0 <= i < |ds| && ds[i].id == k
  {
    if ds == [] then map[]
    else
      var m := EntryMap(ds[..|ds| - 1]);
      assert forall i :: 0 <= i < |ds| - 1 ==> ds[..|ds| - 1][i] == ds[i];
      m[ds[|ds| - 1].id := ds[|ds| - 1].fullName]
  }

  /** The entry for an id is the name on the last row with that id. */
  lemma {:induction false} EntryMapLastWins(ds: seq<Profile>, i: nat)
    requires i < |ds|
    requires forall j :: i < j < |ds| ==> ds[j].id != ds[i].id
    ensures ds[i].id in EntryMap(ds) && EntryMap(ds)[ds[i].id] == ds[i].fullName
  {
    if i < |ds| - 1 {
      var init := ds[..|ds| - 1];
      assert forall j :: i < j < |init| ==> init[j] == ds[j];
      EntryMapLastWins(init, i);
    }
  }

  /** `doctorMap.get(id)`: the stored name, or nothing for an id with no entry. */
  function DoctorNameOf(ds: seq<Profile>, id: Id): (name: Option<string>)
    ensures (forall i :: 0 <= i < |ds| ==> ds[i].id != id) ==> name.None?
  {
    var m := EntryMap(ds);
    if id in m then m[id] else None
  }

  /**
   * One appointment with its doctor joined: `doctor` is set to the mapped name when the
   * appointment has a doctor id and the name is non-empty, and cleared otherwise.
   */
  function JoinDoctor(a: Appointment, ds: seq<Profile>): (r: Appointment)
    ensures r.(doctor := a.doctor) == a
    ensures r.doctor.Some? <==> Present(a.doctorId) && Present(DoctorNameOf(ds, a.doctorId.value))
    ensures r.doctor.Some? ==> r.doctor == DoctorNameOf(ds, a.doctorId.value)
  {
    var name := if Present(a.doctorId) then DoctorNameOf(ds, a.doctorId.value) else None;
    a.(doctor := if Present(name) then name else None)
  }

  /** The joined name is the one on the last doctor row with the appointment's doctor id. */
  lemma JoinUsesLastRow(a: Appointment, ds: seq<Profile>, i: nat)
    requires Present(a.doctorId) && i < |ds| && ds[i].id == a.doctorId.value
    requires forall j :: i < j < |ds| ==> ds[j].id != ds[i].id
    ensures JoinDoctor(a, ds).doctor == if Present(ds[i].fullName) then ds[i].fullName else None
  {
    EntryMapLastWins(ds, i);
  }

  /** The whole list joined: same length and order, every field but `doctor` untouched. */
  function WithDoctors(rows: seq<Appointment>, ds: seq<Profile>): (r: seq<Appointment>)
    ensures |r| == |rows|
    ensures forall i :: 0 <= i < |rows| ==> r[i].(doctor := rows[i].doctor) == rows[i]
    ensures forall i :: 0 <= i < |rows| ==> r[i].doctor == JoinDoctor(rows[i], ds).doctor
  {
    seq(|rows|, i requires 0 <= i < |rows| => JoinDoctor(rows[i], ds))
  }

  datatype Variant = Secondary | Default | Destructive

  datatype Badge = Badge(text: string, variant: Variant)

  /**
   * `statusMap[status]`, with the raw status text and the secondary variant for a
   * status the map does not know.
   */
  function StatusBadge(raw: string): (b: Badge)
    ensures raw == "pending" ==> b == Badge("Pendiente", Secondary)
    ensures raw == "confirmed" ==> b == Badge("Confirmada", Default)
    ensures raw == "cancelled" ==> b == Badge("Cancelada", Destructive)
    ensures ParseStatus(raw).None? ==> b == Badge(raw, Secondary)
  {
    match ParseStatus(raw)
    case Some(Pending) => Badge("Pendiente", Secondary)
    case Some(Confirmed) => Badge("Confirmada", Default)
    case Some(Cancelled) => Badge("Cancelada", Destructive)
    case None => Badge(raw, Secondary)
  }

  /** The three statuses get three different texts, and only a cancelled one is destructive. */
  lemma StatusBadgesDistinct(s: Status, t: Status)
    ensures StatusBadge(StatusText(s)).text == StatusBadge(StatusText(t)).text <==> s == t
    ensures StatusBadge(StatusText(s)).variant == Destructive <==> s == Cancelled
  {
  }

  datatype View = ListView | CalendarView

  class AppointmentsScreen {
    var appointments: seq<Appointment>
    var loading: bool
    var view: View

    constructor ()
      ensures appointments == [] && loading && view == ListView
    {
      appointments := [];
      loading := true;
      view := ListView;
    }

    /**
     * The effect run whenever the view is set. The list view reads the appointments and,
     * only if that succeeded, the doctors; an error in either keeps the shown list. The
     * calendar view reads nothing here. Loading ends in every case. `queries` is the number of
     * reads sent.
     */
    method SetView(v: View, appointmentsReply: Reply<seq<Appointment>>, doctorsReply: Reply<seq<Profile>>)
      returns (queries: nat)
      modifies this
      ensures view == v && !loading
      ensures v == CalendarView ==> queries == 0 && appointments == old(appointments)
      ensures v == ListView ==> queries == (if appointmentsReply.Error? then 1 else 2)
      ensures v == ListView && (appointmentsReply.Error? || doctorsReply.Error?) ==> appointments == old(appointments)
      ensures v == ListView && appointmentsReply.Data? && doctorsReply.Data? ==>
        appointments == WithDoctors(appointmentsReply.value, doctorsReply.value)
    {
      view := v;
      queries := 0;
      if v == ListView {
        loading := true;
        queries := 1;
        if appointmentsReply.Data? {
          queries := 2;
          if doctorsReply.Data? {
            appointments := WithDoctors(appointmentsReply.value, doctorsReply.value);
          }
        }
      }
      loading := false;
    }
  }
}

=== FILE: auth_provider.dfy ===
/**
 * The authentication context: the session, the signed-in staff profile and the
 * `loading` flag, driven by auth-state events and by profile reads that complete later.
 * The provider only reads `profiles`; it never writes a row.
 */
module AuthProvider {
  import opened Wrappers
  import opened Types

  /** A signed-in session; only its user's id matters here. */
  datatype Session = Session(userId: Id)

  /** What the context hands to its consumers. */
  datatype AuthView = AuthView(session: Option<Session>, profile: Option<Profile>, loading: bool)

  /** The answer of `select('*').eq('id', userId).single()`: the row, an error with its code and data, or an exception. */
  datatype ProfileQuery = ProfileRow(profile: Profile) | QueryError(code: string, data: Option<Profile>) | Threw

  /** The code of the "no rows" error, which is not treated as a failure. */
  const NoRowsCode: string := "PGRST116"

  /**
   * `fetchProfile`: the row when there is one; on the "no rows" error the (empty) data is
   * passed through; any other error code, and any exception, gives no profile.
   */
  function FetchProfile(q: ProfileQuery): (r: Option<Profile>)
    ensures q.ProfileRow? ==> r == Some(q.profile)
    ensures q.QueryError? && q.code != NoRowsCode ==> r.None?
    ensures q.QueryError? && q.code == NoRowsCode ==> r == q.data
    ensures q.Threw? ==> r.None?
    ensures r.Some? ==> q.ProfileRow? || (q.QueryError? && q.code == NoRowsCode)
  {
    match q
    case ProfileRow(p) => Some(p)
    case QueryError(code, data) => if code != NoRowsCode then None else data
    case Threw => None
  }

  /** `useAuth()`: the context value inside the provider; outside it, an error. */
  function UseAuth(context: Option<AuthView>): (r: Result<AuthView, string>)
    ensures context.None? <==> r.Failure?
    ensures r.Failure? ==> r.error == "useAuth must be used within an AuthProvider"
    ensures r.Success? ==> Some(r.value) == context
  {
    if context.None? then Failure("useAuth must be used within an AuthProvider") else Success(context.value)
  }

  class AuthState {
    var session: Option<Session>
    var profile: Option<Profile>
    var loading: bool
    /** User ids of the profile reads started and not yet completed, oldest first. */
    var pending: seq<Id>

    /** Mounting the provider: no session, no profile, and loading. */
    constructor ()
      ensures session.None? && profile.None? && loading && pending == []
    {
      session := None;
      profile := None;
      loading := true;
      pending := [];
    }

    function View(): (v: AuthView)
      reads this
      ensures v.session == session && v.profile == profile && v.loading == loading
    {
      AuthView(session, profile, loading)
    }

    /**
     * An auth-state event. The session is stored at once. Without a session the profile
     * is cleared and loading ends; with one a profile read starts and the profile and
     * loading flag stay as they were until it completes.
     */
    method OnAuthEvent(s: Option<Session>)
      modifies this
      ensures session == s
      ensures s.None? ==> profile.None? && !loading && pending == old(pending)
      ensures s.Some? ==> profile == old(profile) && loading == old(loading) && pending == old(pending) + [s.value.userId]
      ensures s.None? ==> View() == AuthView(None, None, false)
      ensures s.Some? ==> View() == old(View()).(session := s)
    {
      session := s;
      if s.Some? {
        pending := pending + [s.value.userId];
      } else {
        profile := None;
        loading := false;
      }
    }

    /**
     * A profile read completes: its classified result becomes the profile and loading
     * ends, whichever read it was (a read started for an earlier session is not discarded).
     */
    method OnProfileFetched(k: nat, q: ProfileQuery)
      requires k < |pending|
      modifies this
      ensures profile == FetchProfile(q) && !loading
      ensures session == old(session)
      ensures pending == old(pending)[..k] + old(pending)[k + 1..]
      ensures View() == AuthView(old(session), FetchProfile(q), false)
    {
      profile := FetchProfile(q);
      loading := false;
      pending := pending[..k] + pending[k + 1..];
    }
  }
}

=== FILE: backend.dfy ===
/**
 * The hosted tables as values, and the writes and lookups the screens send to them.
 * A backend call that can fail takes its outcome as a parameter; a generated key
 * (a new row's id) and the server clock are parameters too.
 */
module Backend {
  import opened Wrappers
  import opened Types

  /** The `patients` and `appointments` tables. */
  datatype Db = Db(patients: seq<Patient>, appointments: seq<Appointment>)

  /** The three patient columns the screens write: `full_name`, `email`, `phone`. */
  datatype PatientFields = PatientFields(fullName: string, email: string, phone: Option<string>)

  /**
   * An `appointments` insert. A column left out of the payload is `None`: the booking
   * page sends no `status` (the table's default, pending, applies) and no `patient_id`.
   */
  datatype NewAppointment = NewAppointment(
    fullName: string,
    email: string,
    phone: Option<string>,
    specialty: string,
    doctorId: Option<Id>,
    appointmentDate: Millis,
    notes: Option<string>,
    status: Option<Status>,
    patientId: Option<Id>)

  /** An `appointments` update: each `Some` is a column written, each `None` a key not sent. */
  datatype AppointmentPatch = AppointmentPatch(doctorId: Option<Id>, status: Option<Status>, patientId: Option<Id>)

  // ---- patients ----

  /** Ids of the patients with this email, in table order. */
  function IdsWithEmail(ps: seq<Patient>, email: string): (ids: seq<Id>)
    ensures |ids| <= |ps|
    ensures forall id :: id in ids <==> exists i :: 0 <= i < |ps| && ps[i].email == email && ps[i].id == id
    ensures (forall i :: 0 <= i < |ps| ==> ps[i].email != email) ==> ids == []
  {
    if ps == [] then []
    else
      var rest := IdsWithEmail(ps[..|ps| - 1], email);
      var last := ps[|ps| - 1];
      assert forall i :: 0 <= i < |ps| - 1 ==> ps[..|ps| - 1][i] == ps[i];
      if last.email == email then rest + [last.id] else rest
  }

  /** No two patients share an email. */
  predicate EmailsUnique(ps: seq<Patient>)
  {
    forall i, j :: 0 <= i < j < |ps| ==> ps[i].email != ps[j].email
  }

  /** On a table with unique emails an email matches at most one row. */
  lemma {:induction false} UniqueEmailsMatchAtMostOnce(ps: seq<Patient>, email: string)
    ensures EmailsUnique(ps) ==> |IdsWithEmail(ps, email)| <= 1
  {
    if ps != [] && EmailsUnique(ps) {
      var init := ps[..|ps| - 1];
      assert EmailsUnique(init);
      UniqueEmailsMatchAtMostOnce(init, email);
      if ps[|ps| - 1].email == email {
        assert forall i :: 0 <= i < |init| ==> init[i].email != email;
      }
    }
  }

  /** The result of `.select('id').eq('email', e).maybeSingle()`. */
  datatype Lookup = LookupError | NoRow | Row(id: Id)

  /**
   * A single-row lookup by email: no row, the one matching row, or an error when
   * several rows match.
   */
  function FindByEmail(ps: seq<Patient>, email: string): (r: Lookup)
    ensures r.NoRow? <==> forall i :: 0 <= i < |ps| ==> ps[i].email != email
    ensures r.Row? ==> exists i :: 0 <= i < |ps| && ps[i].email == email && ps[i].id == r.id
    ensures r.LookupError? ==> !EmailsUnique(ps)
  {
    var ids := IdsWithEmail(ps, email);
    if |ids| == 0 then
      assert forall i :: 0 <= i < |ps| && ps[i].email == email ==> ps[i].id in ids;
      NoRow
    else if |ids| == 1 then
      assert ids[0] in ids;
      Row(ids[0])
    else
      assert ids[0] in ids;
      UniqueEmailsMatchAtMostOnce(ps, email);
      LookupError
  }

  /** Number of patients with this email. */
  function EmailCount(ps: seq<Patient>, email: string): nat
  {
    |IdsWithEmail(ps, email)|
  }

  lemma EmailCountAppend(ps: seq<Patient>, p: Patient, email: string)
    ensures EmailCount(ps + [p], email) == EmailCount(ps, email) + (if p.email == email then 1 else 0)
  {
    assert (ps + [p])[..|ps + [p]| - 1] == ps;
  }

  /** A patient insert that succeeded: the new row, with its server-generated id and time, goes last. */
  function InsertPatient(db: Db, fields: PatientFields, newId: Id, now: Millis): (r: Db)
    ensures r.appointments == db.appointments
    ensures |r.patients| == |db.patients| + 1 && r.patients[..|db.patients|] == db.patients
    ensures var p := r.patients[|db.patients|];
      p.id == newId && p.fullName == fields.fullName && p.email == fields.email && p.phone == fields.phone
  {
    var p := Patient(newId, fields.fullName, fields.email, fields.phone, now, None, None, None);
    db.(patients := db.patients + [p])
  }

  /** `update({full_name, email, phone}).eq('id', id)`: every row with that id gets the three columns. */
  function UpdatePatient(db: Db, id: Id, fields: PatientFields): (r: Db)
    ensures r.appointments == db.appointments && |r.patients| == |db.patients|
    ensures forall i :: 0 <= i < |r.patients| ==>
      if db.patients[i].id == id
      then r.patients[i] == db.patients[i].(fullName := fields.fullName, email := fields.email, phone := fields.phone)
      else r.patients[i] == db.patients[i]
  {
    var ps := db.patients;
    db.(patients := seq(|ps|, i requires 0 <= i < |ps| =>
      if ps[i].id == id then ps[i].(fullName := fields.fullName, email := fields.email, phone := fields.phone) else ps[i]))
  }

  /** `delete().eq('id', id)`: the rows with that id go, the others keep their order. */
  function DeletePatient(db: Db, id: Id): (r: Db)
    ensures r.appointments == db.appointments
    ensures forall p :: p in r.patients <==> p in db.patients && p.id != id
    ensures |r.patients| <= |db.patients|
  {
    db.(patients := RemoveId(db.patients, id))
  }

  function RemoveId(ps: seq<Patient>, id: Id): (r: seq<Patient>)
    ensures forall p :: p in r <==> p in ps && p.id != id
    ensures |r| <= |ps|
  {
    if ps == [] then []
    else if ps[0].id == id then RemoveId(ps[1..], id)
    else [ps[0]] + RemoveId(ps[1..], id)
  }

  /** Removal keeps the remaining rows in their order: it distributes over concatenation. */
  lemma {:induction false} RemoveIdAppend(a: seq<Patient>, b: seq<Patient>, id: Id)
    ensures RemoveId(a + b, id) == RemoveId(a, id) + RemoveId(b, id)
  {
    if a == [] {
      assert a + b == b;
    } else {
      assert (a + b)[1..] == a[1..] + b;
      RemoveIdAppend(a[1..], b, id);
    }
  }

  // ---- appointments ----

  /** An appointment insert that succeeded; a status left out takes the column default, pending. */
  function InsertAppointment(db: Db, a: NewAppointment, newId: Id, now: Millis): (r: Db)
    ensures r.patients == db.patients
    ensures |r.appointments| == |db.appointments| + 1 && r.appointments[..|db.appointments|] == db.appointments
    ensures var row := r.appointments[|db.appointments|];
      row.id == newId && row.fullName == a.fullName && row.email == a.email && row.phone == a.phone &&
      row.specialty == a.specialty && row.doctorId == a.doctorId && row.appointmentDate == a.appointmentDate &&
      row.notes == a.notes && row.patientId == a.patientId && row.doctor == None &&
      row.status == (if a.status.Some? then a.status.value else Pending)
  {
    var status := if a.status.Some? then a.status.value else Pending;
    var row := Appointment(newId, a.fullName, a.email, a.phone, a.specialty, a.appointmentDate, a.notes,
                           status, now, a.patientId, a.doctorId, None);
    db.(appointments := db.appointments + [row])
  }

  /** One row after a patch: the columns the patch names take its values, every other column is kept. */
  function Patched(a: Appointment, p: AppointmentPatch): (r: Appointment)
    ensures r.(doctorId := a.doctorId, status := a.status, patientId := a.patientId) == a
    ensures r.doctorId == (if p.doctorId.Some? then p.doctorId else a.doctorId)
    ensures r.status == (if p.status.Some? then p.status.value else a.status)
    ensures r.patientId == (if p.patientId.Some? then p.patientId else a.patientId)
  {
    a.(doctorId := if p.doctorId.Some? then p.doctorId else a.doctorId,
       status := if p.status.Some? then p.status.value else a.status,
       patientId := if p.patientId.Some? then p.patientId else a.patientId)
  }

  /** `update(patch).eq('id', id)` on `appointments`: only the rows with that id change. */
  function UpdateAppointment(db: Db, id: Id, p: AppointmentPatch): (r: Db)
    ensures r.patients == db.patients && |r.appointments| == |db.appointments|
    ensures forall i :: 0 <= i < |r.appointments| ==>
      r.appointments[i] == if db.appointments[i].id == id then Patched(db.appointments[i], p) else db.appointments[i]
  {
    var rows := db.appointments;
    db.(appointments := seq(|rows|, i requires 0 <= i < |rows| =>
      if rows[i].id == id then Patched(rows[i], p) else rows[i]))
  }
}

=== FILE: create_doctor.dfy ===
/**
 * The doctor-provisioning endpoint: it checks the caller's token and admin role, reads
 * the request body, creates the sign-in account, then writes the doctor's profile,
 * deleting the new account again when that write fails.
 */
module CreateDoctor {
  import opened Wrappers
  import opened Types

  /** A sign-in account of the hosted auth service. */
  datatype AuthUser = AuthUser(id: Id, email: string)

  /** The part of the backend the endpoint writes: the accounts and the `profiles` table. */
  datatype Accounts = Accounts(users: seq<AuthUser>, profiles: seq<Profile>)

  /** The JSON body; a missing or `null` member is `None`. */
  datatype Body = Body(
    email: Option<string>,
    password: Option<string>,
    fullName: Option<string>,
    specialties: Option<seq<string>>,
    phone: Option<string>,
    address: Option<string>)

  /** The columns written to the doctor's profile. */
  datatype ProfileData = ProfileData(
    fullName: string,
    specialties: seq<string>,
    role: Role,
    phone: Option<string>,
    address: Option<string>)

  datatype ResponseBody = NoBody | ErrorBody(message: string) | DoctorBody(id: Id, email: string, data: ProfileData)

  datatype Response = Response(status: int, body: ResponseBody)

  /** What the account creation answers. */
  datatype CreateAnswer = CreatedUser(id: Id) | CreateError(message: string)

  /** What the profile update or insert answers. */
  datatype WriteAnswer = Written | WriteError(message: string)

  /**
   * The answers of the outside calls, in the order they are made: the user of the token
   * (`None` on an error or no user), the caller's role as read from `profiles` (`None`
   * when no row was returned), the parsed body (`None` when it is not JSON), the account
   * creation, the profile row that the database adds for a new account (`None` when it
   * adds none), the profile write, and whether the compensating account deletion
   * succeeded.
   */
  datatype Answers = Answers(
    userOfToken: Option<Id>,
    callerRole: Option<string>,
    body: Option<Body>,
    created: CreateAnswer,
    rowOnCreate: Option<Profile>,
    write: WriteAnswer,
    deleted: bool)

  /** The outside calls, for stating which were made and in what order. */
  datatype Step = GetUser | ReadCallerRole | ReadBody | CreateUser | ReadProfile | UpdateProfile | InsertProfile | DeleteUser

  const CorsPreflight: string := "OPTIONS"
  const InternalErrorPrefix: string := "Error interno del servidor: "

  /** The token check passed: not a preflight, a header, and a user for its token. */
  predicate Authenticated(httpMethod: string, authHeader: Option<string>, a: Answers)
  {
    httpMethod != CorsPreflight && authHeader.Some? && a.userOfToken.Some?
  }

  /** `profile?.role !== 'admin'` is false. */
  predicate CallerIsAdmin(a: Answers)
  {
    a.callerRole == Some("admin")
  }

  /** `email`, `password` and `full_name` are all truthy. */
  predicate HasRequiredFields(b: Body)
  {
    Present(b.email) && Present(b.password) && Present(b.fullName)
  }

  /** Every check passed and the account was created. */
  predicate AccountCreated(httpMethod: string, authHeader: Option<string>, a: Answers)
  {
    Authenticated(httpMethod, authHeader, a) && CallerIsAdmin(a) && a.body.Some? && HasRequiredFields(a.body.value) &&
    a.created.CreatedUser?
  }

  /** `profileData`: always the doctor role; no specialties become `[]`; an empty or missing phone or address becomes `null`. */
  function ProfileDataOf(fullName: string, b: Body): (d: ProfileData)
    ensures d.fullName == fullName && d.role == Doctor
    ensures d.specialties == (if b.specialties.Some? then b.specialties.value else [])
    ensures d.phone.Some? <==> Present(b.phone)
    ensures d.address.Some? <==> Present(b.address)
    ensures d.phone.Some? ==> d.phone == b.phone && d.phone.value != ""
    ensures d.address.Some? ==> d.address == b.address && d.address.value != ""
  {
    ProfileData(
      fullName,
      if b.specialties.Some? then b.specialties.value else [],
      Doctor,
      if Present(b.phone) then b.phone else None,
      if Present(b.address) then b.address else None)
  }

  /** `update(profileData).eq('id', id)`: the rows with that id take the five columns. */
  function UpdateProfiles(ps: seq<Profile>, id: Id, d: ProfileData): (r: seq<Profile>)
    ensures |r| == |ps|
    ensures forall i :: 0 <= i < |ps| ==>
      r[i] == if ps[i].id == id
        then ps[i].(fullName := Some(d.fullName), specialties := Some(d.specialties), role := d.role,
                    phone := d.phone, address := d.address)
        else ps[i]
  {
    seq(|ps|, i requires 0 <= i < |ps| =>
      if ps[i].id == id
      then ps[i].(fullName := Some(d.fullName), specialties := Some(d.specialties), role := d.role,
                  phone := d.phone, address := d.address)
      else ps[i])
  }

  /** The inserted profile row: the account id and `profileData`; the other columns are empty. */
  function NewProfile(id: Id, d: ProfileData, now: Millis): (p: Profile)
    ensures p.id == id && p.fullName == Some(d.fullName) && p.role == d.role && p.specialties == Some(d.specialties)
    ensures p.phone == d.phone && p.address == d.address && p.specialty.None? && p.email.None?
  {
    Profile(id, Some(d.fullName), d.role, now, None, Some(d.specialties), d.phone, d.address, None)
  }

  /** `deleteUser(id)`: the accounts with that id go, the others keep their order. */
  function RemoveUser(us: seq<AuthUser>, id: Id): (r: seq<AuthUser>)
    ensures forall u :: u in r <==> u in us && u.id != id
  {
    if us == [] then []
    else if us[0].id == id then RemoveUser(us[1..], id)
    else [us[0]] + RemoveUser(us[1..], id)
  }

  /** Deletion keeps the remaining accounts in their order: it distributes over concatenation. */
  lemma {:induction false} RemoveUserAppend(a: seq<AuthUser>, b: seq<AuthUser>, id: Id)
    ensures RemoveUser(a + b, id) == RemoveUser(a, id) + RemoveUser(b, id)
  {
    if a == [] {
      assert a + b == b;
    } else {
      assert (a + b)[1..] == a[1..] + b;
      RemoveUserAppend(a[1..], b, id);
    }
  }

  /** Deleting an account with a fresh id right after creating it restores the account list exactly. */
  lemma {:induction false} CompensationRestoresUsers(us: seq<AuthUser>, u: AuthUser)
    requires forall i :: 0 <= i < |us| ==> us[i].id != u.id
    ensures RemoveUser(us + [u], u.id) == us
  {
    if us == [] {
      assert [u][1..] == [];
    } else {
      assert (us + [u])[1..] == us[1..] + [u];
      CompensationRestoresUsers(us[1..], u);
    }
  }

  /** The number of profile rows with that id. */
  function CountId(ps: seq<Profile>, id: Id): (n: nat)
    ensures n <= |ps|
    ensures n == 0 <==> forall i :: 0 <= i < |ps| ==> ps[i].id != id
  {
    if ps == [] then 0
    else (if ps[0].id == id then 1 else 0) + CountId(ps[1..], id)
  }

  lemma {:induction false} CountIdAppend(a: seq<Profile>, b: seq<Profile>, id: Id)
    ensures CountId(a + b, id) == CountId(a, id) + CountId(b, id)
  {
    if a == [] {
      assert a + b == b;
    } else {
      assert (a + b)[1..] == a[1..] + b;
      CountIdAppend(a[1..], b, id);
    }
  }

  /** Two tables whose rows carry the same ids, position by position, count every id alike. */
  lemma {:induction false} SameIdsSameCount(p: seq<Profile>, q: seq<Profile>, id: Id)
    requires |p| == |q| && forall i :: 0 <= i < |p| ==> p[i].id == q[i].id
    ensures CountId(p, id) == CountId(q, id)
  {
    if p != [] {
      SameIdsSameCount(p[1..], q[1..], id);
    }
  }

  /** `.single()` on the id returns a row exactly when one row has it; none or several give no data. */
  predicate SingleRow(ps: seq<Profile>, id: Id)
  {
    CountId(ps, id) == 1
  }

  /** The profile row the database adds when the account is created, under the account's id. */
  function AccountRows(id: Id, row: Option<Profile>): (r: seq<Profile>)
    ensures |r| <= 1 && (r != [] <==> row.Some?)
    ensures forall i :: 0 <= i < |r| ==> r[i].id == id
  {
    if row.Some? then [row.value.(id := id)] else []
  }

  /** The backend right after the account is created: the new account and the row the database may add. */
  function WithAccount(s: Accounts, id: Id, email: string, row: Option<Profile>): Accounts
  {
    Accounts(s.users + [AuthUser(id, email)], s.profiles + AccountRows(id, row))
  }

  /** The profile write: an update when `.single()` found the row, an insert otherwise. */
  function WrittenProfiles(ps: seq<Profile>, id: Id, d: ProfileData, now: Millis): seq<Profile>
  {
    if SingleRow(ps, id) then UpdateProfiles(ps, id, d) else ps + [NewProfile(id, d, now)]
  }

  /** The backend after a successful request. */
  function AfterWrite(s: Accounts, id: Id, email: string, row: Option<Profile>, d: ProfileData, now: Millis): Accounts
  {
    var t := WithAccount(s, id, email, row);
    t.(profiles := WrittenProfiles(t.profiles, id, d, now))
  }

  /** The backend after a failed profile write: the account is gone only if its deletion succeeded. */
  function AfterFailedWrite(s: Accounts, id: Id, email: string, row: Option<Profile>, deleted: bool): Accounts
  {
    var t := WithAccount(s, id, email, row);
    if deleted then t.(users := RemoveUser(t.users, id)) else t
  }

  /** For a fresh id, `.single()` finds a row exactly when the database added one on account creation. */
  lemma FoundIffRowOnCreate(ps: seq<Profile>, id: Id, row: Option<Profile>)
    requires forall i :: 0 <= i < |ps| ==> ps[i].id != id
    ensures SingleRow(ps + AccountRows(id, row), id) <==> row.Some?
  {
    CountIdAppend(ps, AccountRows(id, row), id);
  }

  /**
   * For a fresh id, a successful request leaves exactly one profile row for the new
   * doctor, carrying the profile data, and keeps every earlier row as it was.
   */
  lemma SuccessWritesDoctorProfile(s: Accounts, id: Id, email: string, row: Option<Profile>, d: ProfileData, now: Millis)
    requires forall i :: 0 <= i < |s.profiles| ==> s.profiles[i].id != id
    ensures var w := AfterWrite(s, id, email, row, d, now).profiles;
      CountId(w, id) == 1 &&
      (forall i :: 0 <= i < |s.profiles| ==> w[i] == s.profiles[i]) &&
      (forall i :: 0 <= i < |w| && w[i].id == id ==>
        w[i].fullName == Some(d.fullName) && w[i].role == d.role && w[i].specialties == Some(d.specialties) &&
        w[i].phone == d.phone && w[i].address == d.address)
  {
    var p1 := s.profiles + AccountRows(id, row);
    CountIdAppend(s.profiles, AccountRows(id, row), id);
    if SingleRow(p1, id) {
      SameIdsSameCount(UpdateProfiles(p1, id, d), p1, id);
    } else {
      assert row.None? && p1 == s.profiles;
      CountIdAppend(p1, [NewProfile(id, d, now)], id);
    }
  }

  /**
   * The request handler. A preflight gets an empty answer and nothing else happens. A
   * missing `Authorization` header throws, giving 500. Then, in order: no user for the
   * token gives 401; a caller who is not an admin gives 403 before the body is read; a
   * body that is not JSON throws (500); a missing email, password or name gives 400
   * before any account is created; a failed account creation gives 400. The profile is
   * then updated if `.single()` found the new account's row and inserted otherwise; if
   * that write fails the new account is deleted, the deletion's own answer is ignored,
   * and 400 is returned. Otherwise 200 with the new doctor.
   */
  method Handle(s: Accounts, httpMethod: string, authHeader: Option<string>, a: Answers, exceptionText: string, now: Millis)
    returns (s': Accounts, r: Response, steps: seq<Step>)
    ensures r.status in {200, 400, 401, 403, 500}
    ensures httpMethod == CorsPreflight ==> r == Response(200, NoBody) && steps == [] && s' == s
    ensures httpMethod != CorsPreflight && authHeader.None? ==>
      r == Response(500, ErrorBody(InternalErrorPrefix + exceptionText)) && steps == [] && s' == s
    ensures r.status == 500 <==> (httpMethod != CorsPreflight &&
      (authHeader.None? || (Authenticated(httpMethod, authHeader, a) && CallerIsAdmin(a) && a.body.None?)))
    ensures r.status == 401 <==> httpMethod != CorsPreflight && authHeader.Some? && a.userOfToken.None?
    ensures r.status == 401 ==> r.body == ErrorBody("No autorizado") && steps == [GetUser] && s' == s
    ensures r.status == 403 <==> Authenticated(httpMethod, authHeader, a) && !CallerIsAdmin(a)
    ensures r.status == 403 ==> steps == [GetUser, ReadCallerRole] && ReadBody !in steps && s' == s
    ensures Authenticated(httpMethod, authHeader, a) && CallerIsAdmin(a) && a.body.Some? && !HasRequiredFields(a.body.value) ==>
      r == Response(400, ErrorBody("Email, contraseña y nombre son requeridos")) && CreateUser !in steps && s' == s
    ensures !AccountCreated(httpMethod, authHeader, a) ==> s' == s
    ensures r.status == 200 <==> httpMethod == CorsPreflight || (AccountCreated(httpMethod, authHeader, a) && a.write.Written?)
    ensures AccountCreated(httpMethod, authHeader, a) ==> (
      var t := WithAccount(s, a.created.id, a.body.value.email.value, a.rowOnCreate);
      (UpdateProfile in steps <==> SingleRow(t.profiles, a.created.id)) &&
      (InsertProfile in steps <==> !SingleRow(t.profiles, a.created.id)))
    ensures DeleteUser in steps <==> AccountCreated(httpMethod, authHeader, a) && a.write.WriteError?
    ensures AccountCreated(httpMethod, authHeader, a) && a.write.WriteError? ==>
      r.status == 400 && s' == AfterFailedWrite(s, a.created.id, a.body.value.email.value, a.rowOnCreate, a.deleted)
    ensures AccountCreated(httpMethod, authHeader, a) && a.write.Written? ==> (
      var b := a.body.value;
      var d := ProfileDataOf(b.fullName.value, b);
      r.body == DoctorBody(a.created.id, b.email.value, d) &&
      s' == AfterWrite(s, a.created.id, b.email.value, a.rowOnCreate, d, now))
  {
    if httpMethod == CorsPreflight {
      return s, Response(200, NoBody), [];
    }
    if authHeader.None? {
      return s, Response(500, ErrorBody(InternalErrorPrefix + exceptionText)), [];
    }
    if a.userOfToken.None? {
      return s, Response(401, ErrorBody("No autorizado")), [GetUser];
    }
    if !CallerIsAdmin(a) {
      return s, Response(403, ErrorBody("Solo los administradores pueden crear doctores")), [GetUser, ReadCallerRole];
    }
    if a.body.None? {
      return s, Response(500, ErrorBody(InternalErrorPrefix + exceptionText)), [GetUser, ReadCallerRole, ReadBody];
    }
    var b := a.body.value;
    if !HasRequiredFields(b) {
      return s, Response(400, ErrorBody("Email, contraseña y nombre son requeridos")), [GetUser, ReadCallerRole, ReadBody];
    }
    if a.created.CreateError? {
      return s, Response(400, ErrorBody("Error al crear usuario: " + a.created.message)),
             [GetUser, ReadCallerRole, ReadBody, CreateUser];
    }
    var tail;
    s', r, tail := WriteProfile(WithAccount(s, a.created.id, b.email.value, a.rowOnCreate), a.created.id,
                                b.email.value, ProfileDataOf(b.fullName.value, b), a, now);
    steps := [GetUser, ReadCallerRole, ReadBody, CreateUser] + tail;
  }

  /**
   * The part after the account exists in `t`: read the new account's profile with
   * `.single()`, update it when found and insert it otherwise; on a failed write delete
   * the account, whatever that deletion answers, and return 400.
   */
  method WriteProfile(t: Accounts, id: Id, email: string, d: ProfileData, a: Answers, now: Millis)
    returns (s': Accounts, r: Response, tail: seq<Step>)
    ensures |tail| > 0 && tail[0] == ReadProfile
    ensures GetUser !in tail && ReadCallerRole !in tail && ReadBody !in tail && CreateUser !in tail
    ensures UpdateProfile in tail <==> SingleRow(t.profiles, id)
    ensures InsertProfile in tail <==> !SingleRow(t.profiles, id)
    ensures DeleteUser in tail <==> a.write.WriteError?
    ensures r.status == (if a.write.Written? then 200 else 400)
    ensures a.write.WriteError? ==> s' == (if a.deleted then t.(users := RemoveUser(t.users, id)) else t)
    ensures a.write.Written? ==>
      r.body == DoctorBody(id, email, d) && s' == t.(profiles := WrittenProfiles(t.profiles, id, d, now))
  {
    var found := SingleRow(t.profiles, id);
    var write := if found then UpdateProfile else InsertProfile;
    if a.write.WriteError? {
      var prefix := if found then "Error al actualizar perfil del doctor: " else "Error al crear perfil del doctor: ";
      s' := if a.deleted then t.(users := RemoveUser(t.users, id)) else t;
      r := Response(400, ErrorBody(prefix + a.write.message));
      tail := [ReadProfile, write, DeleteUser];
    } else {
      s' := t.(profiles := WrittenProfiles(t.profiles, id, d, now));
      r := Response(200, DoctorBody(id, email, d));
      tail := [ReadProfile, write];
    }
  }

  /**
   * When the new account's id is fresh, the database added no profile row for it and the
   * deletion succeeded, a failed profile write leaves the backend exactly as it was.
   */
  lemma FailedWriteLeavesNoTrace(s: Accounts, a: Answers)
    requires a.created.CreatedUser? && a.body.Some? && a.body.value.email.Some?
    requires a.deleted && a.rowOnCreate.None?
    requires forall i :: 0 <= i < |s.users| ==> s.users[i].id != a.created.id
    ensures AfterFailedWrite(s, a.created.id, a.body.value.email.value, a.rowOnCreate, a.deleted) == s
  {
    CompensationRestoresUsers(s.users, AuthUser(a.created.id, a.body.value.email.value));
    assert s.profiles + [] == s.profiles;
  }

  /** When the deletion fails, the new account stays although the answer is 400. */
  lemma FailedDeleteKeepsAccount(s: Accounts, id: Id, email: string, row: Option<Profile>)
    ensures var t := AfterFailedWrite(s, id, email, row, false);
      |t.users| == |s.users| + 1 && t.users[|s.users|] == AuthUser(id, email) &&
      CountId(t.profiles, id) == CountId(s.profiles, id) + (if row.Some? then 1 else 0)
  {
    CountIdAppend(s.profiles, AccountRows(id, row), id);
  }
}

=== FILE: dashboard_page.dfy ===
/** The dashboard dispatch: which panel the signed-in staff member sees. */
module DashboardPage {
  import opened Wrappers
  import opened Types
  import opened AuthProvider

  datatype Panel = LoadingPanel | AdminPanel | DoctorPanel | NoRoleMessage

  /** Loading first; then the profile's role; a missing profile gets the no-role message. */
  function Dispatch(v: AuthView): (p: Panel)
    ensures p == LoadingPanel <==> v.loading
    ensures p == AdminPanel <==> !v.loading && v.profile.Some? && v.profile.value.role == Admin
    ensures p == DoctorPanel <==> !v.loading && v.profile.Some? && v.profile.value.role == Doctor
    ensures p == NoRoleMessage <==> !v.loading && v.profile.None?
  {
    if v.loading then LoadingPanel
    else if v.profile.None? then NoRoleMessage
    else match v.profile.value.role
      case Admin => AdminPanel
      case Doctor => DoctorPanel
  }

  /** While loading, the panel is the spinner whatever the profile and the session. */
  lemma LoadingIgnoresProfile(v: AuthView, w: AuthView)
    requires v.loading && w.loading
    ensures Dispatch(v) == Dispatch(w) == LoadingPanel
  {
  }
}

=== FILE: doctores_page.dfy ===
/**
 * The doctors screen: the create/edit dialog and its form. Editing writes four columns
 * of the doctor's profile directly; creating checks the form and the session and then
 * calls the provisioning endpoint.
 */
module DoctoresPage {
  import opened Wrappers
  import opened Types
  import CreateDoctor

  /** The dialog's fields. */
  datatype DoctorForm = DoctorForm(
    fullName: string,
    specialties: seq<string>,
    email: string,
    password: string,
    phone: string,
    address: string)

  function EmptyForm(): DoctorForm
  {
    DoctorForm("", [], "", "", "", "")
  }

  /** `handleEdit`: the doctor's name, specialties, phone and address, each defaulting to ""/[]; email and password blank. */
  function FormOf(d: Profile): (f: DoctorForm)
    ensures f.email == "" && f.password == ""
    ensures f.fullName == (if d.fullName.Some? then d.fullName.value else "")
    ensures f.specialties == (if d.specialties.Some? then d.specialties.value else [])
    ensures f.phone == (if d.phone.Some? then d.phone.value else "")
    ensures f.address == (if d.address.Some? then d.address.value else "")
  {
    DoctorForm(
      if d.fullName.Some? then d.fullName.value else "",
      if d.specialties.Some? then d.specialties.value else [],
      "", "",
      if d.phone.Some? then d.phone.value else "",
      if d.address.Some? then d.address.value else "")
  }

  /** The edit: the rows with that id take name, specialties, phone and address, as typed; nothing else is sent. */
  function EditProfiles(ps: seq<Profile>, id: Id, f: DoctorForm): (r: seq<Profile>)
    ensures |r| == |ps|
    ensures forall i :: 0 <= i < |ps| && ps[i].id != id ==> r[i] == ps[i]
    ensures forall i :: 0 <= i < |ps| && ps[i].id == id ==>
      r[i].(fullName := ps[i].fullName, specialties := ps[i].specialties, phone := ps[i].phone, address := ps[i].address) == ps[i]
    ensures forall i :: 0 <= i < |ps| && ps[i].id == id ==>
      r[i].fullName == Some(f.fullName) && r[i].specialties == Some(f.specialties) &&
      r[i].phone == Some(f.phone) && r[i].address == Some(f.address)
  {
    seq(|ps|, i requires 0 <= i < |ps| =>
      if ps[i].id == id
      then ps[i].(fullName := Some(f.fullName), specialties := Some(f.specialties), phone := Some(f.phone), address := Some(f.address))
      else ps[i])
  }

  /** Editing never touches the role, the email or any other column of a profile. */
  lemma EditKeepsRoleAndEmail(ps: seq<Profile>, id: Id, f: DoctorForm, i: nat)
    requires i < |ps|
    ensures EditProfiles(ps, id, f)[i].role == ps[i].role && EditProfiles(ps, id, f)[i].email == ps[i].email
    ensures EditProfiles(ps, id, f)[i].id == ps[i].id
  {
  }

  /** The create form's own check: email, password and name all non-empty. */
  predicate FormComplete(f: DoctorForm)
  {
    f.email != "" && f.password != "" && f.fullName != ""
  }

  /** The JSON body the create request sends: every field of the form except nothing; the phone and address as typed. */
  function RequestBody(f: DoctorForm): (b: CreateDoctor.Body)
    ensures FormComplete(f) <==> CreateDoctor.HasRequiredFields(b)
    ensures b.specialties == Some(f.specialties)
  {
    CreateDoctor.Body(Some(f.email), Some(f.password), Some(f.fullName), Some(f.specialties), Some(f.phone), Some(f.address))
  }

  /**
   * The profile a successful create request writes: the page's empty phone or address
   * reaches the table as null, not as "".
   */
  lemma CreateStoresNullForBlank(f: DoctorForm)
    requires FormComplete(f)
    ensures var d := CreateDoctor.ProfileDataOf(f.fullName, RequestBody(f));
      d.role == Doctor && d.specialties == f.specialties &&
      (d.phone.None? <==> f.phone == "") && (d.address.None? <==> f.address == "")
  {
  }

  /** What became of a submit. */
  datatype SubmitResult = Updated | UpdateFailed | Incomplete | NoSession | Created | CreateRejected(status: int)

  class DoctorsScreen {
    var doctors: seq<Profile>
    var loading: bool
    var dialogOpen: bool
    var editing: Option<Profile>
    var submitting: bool
    var form: DoctorForm

    constructor ()
      ensures doctors == [] && loading && !dialogOpen && editing.None? && !submitting && form == EmptyForm()
    {
      doctors := [];
      loading := true;
      dialogOpen := false;
      editing := None;
      submitting := false;
      form := EmptyForm();
    }

    /** `fetchDoctors`: replaced on success, kept on error. */
    method Reload(reply: Reply<seq<Profile>>)
      modifies this
      ensures doctors == (if reply.Data? then reply.value else old(doctors)) && !loading
      ensures dialogOpen == old(dialogOpen) && editing == old(editing) && form == old(form) && submitting == old(submitting)
    {
      loading := true;
      if reply.Data? {
        doctors := reply.value;
      }
      loading := false;
    }

    /** `resetForm`: empty fields, no doctor being edited, dialog closed. */
    method ResetForm()
      modifies this
      ensures form == EmptyForm() && editing.None? && !dialogOpen
      ensures doctors == old(doctors) && loading == old(loading) && submitting == old(submitting)
    {
      form := EmptyForm();
      editing := None;
      dialogOpen := false;
    }

    /** `handleEdit`: remember the doctor, fill the form from it, open the dialog. */
    method HandleEdit(d: Profile)
      modifies this
      ensures editing == Some(d) && form == FormOf(d) && dialogOpen
      ensures doctors == old(doctors) && loading == old(loading) && submitting == old(submitting)
    {
      editing := Some(d);
      form := FormOf(d);
      dialogOpen := true;
    }

    /**
     * `handleSubmit`. Editing: one update of the doctor's profile. Creating: an
     * incomplete form or a missing session stops with nothing sent; otherwise the
     * endpoint is called with the session's token and the form as its body. A failure
     * keeps the form; a success resets the form and closes the dialog (the list is then
     * fetched again through `Reload`). `submitting` is false at the end in every case.
     */
    method HandleSubmit(s: CreateDoctor.Accounts, update: Outcome, session: Option<string>,
                        a: CreateDoctor.Answers, exceptionText: string, now: Millis)
      returns (s': CreateDoctor.Accounts, result: SubmitResult)
      modifies this
      ensures !submitting
      ensures old(editing).Some? ==> result in {Updated, UpdateFailed} && s'.users == s.users
      ensures result == Updated <==> old(editing).Some? && update.Ok?
      ensures result == Updated ==> s'.profiles == EditProfiles(s.profiles, old(editing).value.id, old(form))
      ensures old(editing).None? && !FormComplete(old(form)) ==> result == Incomplete
      ensures old(editing).None? && FormComplete(old(form)) && session.None? ==> result == NoSession
      ensures result in {UpdateFailed, Incomplete, NoSession} ==> s' == s
      ensures result == Created <==>
        old(editing).None? && FormComplete(old(form)) && session.Some? &&
        a.userOfToken.Some? && a.callerRole == Some("admin") && a.created.CreatedUser? && a.write.Written?
      ensures result == Created ==>
        s' == CreateDoctor.AfterWrite(s, a.created.id, old(form).email, a.rowOnCreate,
                                      CreateDoctor.ProfileDataOf(old(form).fullName, RequestBody(old(form))), now)
      ensures result.CreateRejected? ==> result.status in {400, 401, 403}
      ensures result.CreateRejected? ==> (
        if a.userOfToken.Some? && a.callerRole == Some("admin") && a.created.CreatedUser?
        then a.write.WriteError? &&
             s' == CreateDoctor.AfterFailedWrite(s, a.created.id, old(form).email, a.rowOnCreate, a.deleted)
        else s' == s)
      ensures result == Created || result == Updated ==> form == EmptyForm() && editing.None? && !dialogOpen
      ensures result != Created && result != Updated ==> form == old(form) && editing == old(editing) && dialogOpen == old(dialogOpen)
      ensures doctors == old(doctors) && loading == old(loading)
    {
      submitting := true;
      s' := s;
      if editing.Some? {
        if update.Failed? {
          result := UpdateFailed;
        } else {
          s' := s.(profiles := EditProfiles(s.profiles, editing.value.id, form));
          result := Updated;
          ResetForm();
        }
      } else if !FormComplete(form) {
        result := Incomplete;
      } else if session.None? {
        result := NoSession;
      } else {
        var r, steps;
        s', r, steps := CreateDoctor.Handle(s, "POST", Some("Bearer " + session.value),
                                            a.(body := Some(RequestBody(form))), exceptionText, now);
        if r.status == 200 {
          result := Created;
          ResetForm();
        } else {
          result := CreateRejected(r.status);
        }
      }
      submitting := false;
    }

    /**
     * `handleDelete`: nothing is sent unless the user confirms and there is a session;
     * then a request goes to the deletion endpoint, whose effect is not modelled, and a
     * success reloads the list.
     */
    method HandleDelete(confirmed: bool, session: Option<string>, responseOk: bool) returns (sent: bool, reload: bool)
      modifies this
      ensures sent <==> confirmed && session.Some?
      ensures reload <==> sent && responseOk
      ensures doctors == old(doctors) && loading == old(loading) && form == old(form)
      ensures editing == old(editing) && dialogOpen == old(dialogOpen) && submitting == old(submitting)
    {
      if !confirmed || session.None? {
        return false, false;
      }
      sent := true;
      reload := responseOk;
    }
  }
}

=== FILE: pacientes_page.dfy ===
/**
 * The patients screen: the create/edit dialog and its form, the submit that inserts or
 * updates a row, and delete behind a confirmation.
 */
module PacientesPage {
  import opened Wrappers
  import opened Types
  import opened Backend

  /** The dialog's three text fields. */
  datatype PatientForm = PatientForm(fullName: string, email: string, phone: string)

  function EmptyForm(): PatientForm
  {
    PatientForm("", "", "")
  }

  /** `handleEdit`: the patient's name and email, and its phone or "" when it has none. */
  function FormOf(p: Patient): (f: PatientForm)
    ensures f.fullName == p.fullName && f.email == p.email
    ensures Present(p.phone) ==> f.phone == p.phone.value
    ensures !Present(p.phone) ==> f.phone == ""
  {
    PatientForm(p.fullName, p.email, if p.phone.Some? then p.phone.value else "")
  }

  /** Both the insert and the update send exactly `full_name`, `email` and `phone`, the phone as typed. */
  function Payload(f: PatientForm): PatientFields
  {
    PatientFields(f.fullName, f.email, Some(f.phone))
  }

  /**
   * Opening a patient and saving without changes rewrites the same name and email; a
   * phone is kept when there is one, and a missing phone is stored as "" rather than left null.
   */
  lemma UnchangedEditRewritesRow(p: Patient)
    ensures var f := Payload(FormOf(p));
      p.(fullName := f.fullName, email := f.email, phone := f.phone) ==
        if Present(p.phone) then p else p.(phone := Some(""))
  {
  }

  /** A manual insert does not look at existing emails: the count for the email always goes up by one. */
  lemma ManualInsertCountsEmail(db: Db, f: PatientForm, newId: Id, now: Millis)
    ensures EmailCount(InsertPatient(db, Payload(f), newId, now).patients, f.email) == EmailCount(db.patients, f.email) + 1
  {
    var r := InsertPatient(db, Payload(f), newId, now);
    assert r.patients == db.patients + [r.patients[|db.patients|]];
    EmailCountAppend(db.patients, r.patients[|db.patients|], f.email);
  }

  class PatientsScreen {
    var patients: seq<Patient>
    var loading: bool
    var dialogOpen: bool
    var editing: Option<Patient>
    var form: PatientForm

    constructor ()
      ensures patients == [] && loading && !dialogOpen && editing.None? && form == EmptyForm()
    {
      patients := [];
      loading := true;
      dialogOpen := false;
      editing := None;
      form := EmptyForm();
    }

    /** `fetchPatients`: the list is replaced on success and kept on error. */
    method Reload(reply: Reply<seq<Patient>>)
      modifies this
      ensures patients == (if reply.Data? then reply.value else old(patients)) && !loading
      ensures dialogOpen == old(dialogOpen) && editing == old(editing) && form == old(form)
    {
      loading := true;
      if reply.Data? {
        patients := reply.value;
      }
      loading := false;
    }

    /** `resetForm`: empty fields, no patient being edited, dialog closed. */
    method ResetForm()
      modifies this
      ensures form == EmptyForm() && editing.None? && !dialogOpen
      ensures patients == old(patients) && loading == old(loading)
    {
      form := EmptyForm();
      editing := None;
      dialogOpen := false;
    }

    /** "Nuevo Paciente": the form is reset first, then the dialog opens. */
    method NewPatient()
      modifies this
      ensures form == EmptyForm() && editing.None? && dialogOpen
      ensures patients == old(patients) && loading == old(loading)
    {
      ResetForm();
      dialogOpen := true;
    }

    /** `handleEdit`: remember the patient, fill the form from it, open the dialog. */
    method HandleEdit(p: Patient)
      modifies this
      ensures editing == Some(p) && form == FormOf(p) && dialogOpen
      ensures patients == old(patients) && loading == old(loading)
    {
      editing := Some(p);
      form := FormOf(p);
      dialogOpen := true;
    }

    /**
     * `handleSubmit`: while editing, update that patient's row; otherwise insert a new
     * one. On error the form, the edited patient and the dialog are kept; on success the
     * list is reloaded and the form reset.
     */
    method HandleSubmit(db: Db, write: Outcome, newId: Id, now: Millis) returns (db': Db, reload: bool)
      modifies this
      ensures reload <==> write.Ok?
      ensures write.Failed? ==> db' == db && form == old(form) && editing == old(editing) && dialogOpen == old(dialogOpen)
      ensures write.Ok? && old(editing).Some? ==> db' == UpdatePatient(db, old(editing).value.id, Payload(old(form)))
      ensures write.Ok? && old(editing).None? ==> db' == InsertPatient(db, Payload(old(form)), newId, now)
      ensures write.Ok? ==> form == EmptyForm() && editing.None? && !dialogOpen
      ensures db'.appointments == db.appointments
      ensures patients == old(patients) && loading == old(loading)
    {
      if write.Failed? {
        return db, false;
      }
      if editing.Some? {
        db' := UpdatePatient(db, editing.value.id, Payload(form));
      } else {
        db' := InsertPatient(db, Payload(form), newId, now);
      }
      reload := true;
      ResetForm();
    }

    /** `handleDelete`: nothing is sent unless the user confirms; success reloads the list. */
    method HandleDelete(db: Db, patientId: Id, confirmed: bool, delete: Outcome) returns (db': Db, sent: bool, reload: bool)
      modifies this
      ensures sent <==> confirmed
      ensures reload <==> confirmed && delete.Ok?
      ensures db' == (if reload then DeletePatient(db, patientId) else db)
      ensures patients == old(patients) && loading == old(loading) && form == old(form)
      ensures editing == old(editing) && dialogOpen == old(dialogOpen)
    {
      if !confirmed {
        return db, false, false;
      }
      sent := true;
      if delete.Failed? {
        return db, sent, false;
      }
      db' := DeletePatient(db, patientId);
      reload := true;
    }
  }
}

=== FILE: patient_appointments_list.dfy ===
/**
 * A patient's appointment history: the doctor-name map built from the doctor rows,
 * the doctor and status cells, and the two reads with their error branches.
 */
module PatientAppointmentsList {
  import opened Wrappers
  import opened Types
  import AppointmentsPage

  /**
   * The doctor map as the loop leaves it: one entry per id of a row whose name is
   * non-empty, the later such row overwriting an earlier one. Rows without a name are skipped.
   */
  function NamedDoctors(ds: seq<Profile>): (m: map<Id, string>)
    ensures forall k :: k in m ==> m[k] != ""
  {
    if ds == [] then map[]
    else
      var m := NamedDoctors(ds[..|ds| - 1]);
      var d := ds[|ds| - 1];
      if Present(d.fullName) then m[d.id := d.fullName.value] else m
  }

  /** An id has an entry exactly when some row with that id has a non-empty name. */
  lemma {:induction false} NamedDoctorsKeys(ds: seq<Profile>, k: Id)
    ensures k in NamedDoctors(ds) <==> exists i :: 0 <= i < |ds| && ds[i].id == k && Present(ds[i].fullName)
  {
    if ds != [] {
      var init := ds[..|ds| - 1];
      NamedDoctorsKeys(init, k);
      assert forall i :: 0 <= i < |init| ==> init[i] == ds[i];
      if k in NamedDoctors(init) {
        var i :| 0 <= i < |init| && init[i].id == k && Present(init[i].fullName);
        assert ds[i] == init[i];
      }
    }
  }

  /** The entry for an id is the name on the last row with that id and a non-empty name. */
  lemma {:induction false} NamedDoctorsLastNamed(ds: seq<Profile>, i: nat)
    requires i < |ds| && Present(ds[i].fullName)
    requires forall j :: i < j < |ds| && ds[j].id == ds[i].id ==> !Present(ds[j].fullName)
    ensures ds[i].id in NamedDoctors(ds) && NamedDoctors(ds)[ds[i].id] == ds[i].fullName.value
  {
    if i < |ds| - 1 {
      var init := ds[..|ds| - 1];
      assert forall j :: i < j < |init| ==> init[j] == ds[j];
      NamedDoctorsLastNamed(init, i);
    }
  }

  /** The `forEach` over the doctor rows that fills the map. */
  method BuildDoctorMap(ds: seq<Profile>) returns (m: map<Id, string>)
    ensures m == NamedDoctors(ds)
  {
    m := map[];
    var i := 0;
    while i < |ds|
      invariant 0 <= i <= |ds|
      invariant m == NamedDoctors(ds[..i])
    {
      assert ds[..i + 1][..i] == ds[..i];
      if Present(ds[i].fullName) {
        m := m[ds[i].id := ds[i].fullName.value];
      }
      i := i + 1;
    }
    assert ds[..|ds|] == ds;
  }

  /**
   * Unlike the appointments screen's map, a later row with no name does not hide an
   * earlier named row with the same id.
   */
  lemma NamelessRowDoesNotHideName(named: Profile, nameless: Profile)
    requires Present(named.fullName) && nameless.id == named.id && nameless.fullName.None?
    ensures named.id in NamedDoctors([named, nameless]) && NamedDoctors([named, nameless])[named.id] == named.fullName.value
    ensures AppointmentsPage.DoctorNameOf([named, nameless], named.id).None?
  {
    NamedDoctorsLastNamed([named, nameless], 0);
    AppointmentsPage.EntryMapLastWins([named, nameless], 1);
  }

  const Unassigned: string := "No asignado"

  /** The doctor cell: the mapped name when the appointment has a doctor id with an entry, else "No asignado". */
  function DoctorCell(a: Appointment, doctors: map<Id, string>): (text: string)
    ensures text != ""
    ensures text != Unassigned ==> Present(a.doctorId) && a.doctorId.value in doctors && text == doctors[a.doctorId.value]
    ensures Present(a.doctorId) && a.doctorId.value in doctors && doctors[a.doctorId.value] != "" ==>
      text == doctors[a.doctorId.value]
  {
    if Present(a.doctorId) && a.doctorId.value in doctors && doctors[a.doctorId.value] != "" then doctors[a.doctorId.value]
    else Unassigned
  }

  /** The status badge: pending and confirmed are recognised; every other text reads "Cancelada". */
  function StatusBadge(raw: string): (b: AppointmentsPage.Badge)
    ensures raw == "pending" ==> b == AppointmentsPage.Badge("Pendiente", AppointmentsPage.Secondary)
    ensures raw == "confirmed" ==> b == AppointmentsPage.Badge("Confirmada", AppointmentsPage.Default)
    ensures raw != "pending" && raw != "confirmed" ==> b == AppointmentsPage.Badge("Cancelada", AppointmentsPage.Destructive)
  {
    if raw == "pending" then AppointmentsPage.Badge("Pendiente", AppointmentsPage.Secondary)
    else if raw == "confirmed" then AppointmentsPage.Badge("Confirmada", AppointmentsPage.Default)
    else AppointmentsPage.Badge("Cancelada", AppointmentsPage.Destructive)
  }

  /**
   * On the three statuses both screens show the same badge; on any other text they
   * differ: here "Cancelada", there the raw text as secondary.
   */
  lemma BadgesAgreeOnStatuses(raw: string)
    ensures ParseStatus(raw).Some? ==> StatusBadge(raw) == AppointmentsPage.StatusBadge(raw)
    ensures ParseStatus(raw).None? ==> StatusBadge(raw) != AppointmentsPage.StatusBadge(raw)
  {
  }

  class History {
    var appointments: seq<Appointment>
    var doctors: map<Id, string>
    var loading: bool

    constructor ()
      ensures appointments == [] && doctors == map[] && loading
    {
      appointments := [];
      doctors := map[];
      loading := true;
    }

    /**
     * Read the patient's appointments (a null list counts as empty); an error stops before
     * the doctors are read. Then read the doctors: on success the map is rebuilt, on error
     * it is kept. Loading ends in every case; `doctorsRead` tells whether the second read was sent.
     */
    method Load(appointmentsReply: Reply<Option<seq<Appointment>>>, doctorsReply: Reply<seq<Profile>>)
      returns (doctorsRead: bool)
      modifies this
      ensures !loading
      ensures doctorsRead <==> appointmentsReply.Data?
      ensures appointmentsReply.Error? ==> appointments == old(appointments) && doctors == old(doctors)
      ensures appointmentsReply.Data? ==>
        appointments == (if appointmentsReply.value.Some? then appointmentsReply.value.value else [])
      ensures appointmentsReply.Data? ==> doctors == (if doctorsReply.Data? then NamedDoctors(doctorsReply.value) else old(doctors))
    {
      loading := true;
      if appointmentsReply.Error? {
        loading := false;
        return false;
      }
      appointments := if appointmentsReply.value.Some? then appointmentsReply.value.value else [];
      doctorsRead := true;
      if doctorsReply.Data? {
        var m := BuildDoctorMap(doctorsReply.value);
        doctors := m;
      }
      loading := false;
    }
  }
}

=== FILE: protected_route.dfy ===
/**
 * The route guard: from the auth context and the route's allowed roles it decides
 * whether to wait, send the visitor to the login page, or show the page, both in its
 * effect (the navigation) and in what it renders.
 */
module ProtectedRoute {
  import opened Wrappers
  import opened Types
  import opened AuthProvider

  const LoginPath: string := "/admin/login"

  /**
   * `allowedRoles && profile && !allowedRoles.includes(profile.role)`: a role list is
   * given, a profile is loaded, and its role is not listed. A missing profile is never denied.
   */
  predicate RoleDenied(profile: Option<Profile>, allowed: Option<seq<Role>>)
  {
    allowed.Some? && profile.Some? && profile.value.role !in allowed.value
  }

  /** The effect: where it navigates, if anywhere. */
  function Navigation(v: AuthView, allowed: Option<seq<Role>>): (target: Option<string>)
    ensures v.loading ==> target.None?
    ensures target.Some? ==> target.value == LoginPath
    ensures !v.loading ==> (target.Some? <==> v.session.None? || RoleDenied(v.profile, allowed))
  {
    if v.loading then None
    else if v.session.None? then Some(LoginPath)
    else if RoleDenied(v.profile, allowed) then Some(LoginPath)
    else None
  }

  /** What the guard renders. */
  datatype Screen = Spinner | RedirectingToLogin | NoPermission | Children

  function Render(v: AuthView, allowed: Option<seq<Role>>): (s: Screen)
    ensures s == Spinner <==> v.loading
    ensures s == RedirectingToLogin <==> !v.loading && v.session.None?
    ensures s == NoPermission <==> !v.loading && v.session.Some? && RoleDenied(v.profile, allowed)
    ensures s == Children <==> !v.loading && v.session.Some? && !RoleDenied(v.profile, allowed)
  {
    if v.loading then Spinner
    else if v.session.None? then RedirectingToLogin
    else if RoleDenied(v.profile, allowed) then NoPermission
    else Children
  }

  /** Once loading is over, the effect navigates exactly when the page is not shown. */
  lemma NavigatesIffNotShown(v: AuthView, allowed: Option<seq<Role>>)
    requires !v.loading
    ensures Navigation(v, allowed).Some? <==> Render(v, allowed) != Children
  {
  }

  /** A session whose profile has not loaded (or does not exist) is shown the page whatever the role list. */
  lemma MissingProfilePasses(v: AuthView, allowed: Option<seq<Role>>)
    requires !v.loading && v.session.Some? && v.profile.None?
    ensures Render(v, allowed) == Children && Navigation(v, allowed).None?
  {
  }

  /** Without a role list any session is shown the page. */
  lemma NoRoleListAnySession(v: AuthView)
    requires !v.loading && v.session.Some?
    ensures Render(v, None) == Children && Navigation(v, None).None?
  {
  }
}

=== FILE: sidebar.dfy ===
/** The staff sidebar: three fixed groups of links, a link being active when the current path starts with its target. */
module Sidebar {

  datatype NavItem = NavItem(name: string, href: string)

  function MainNavigation(): seq<NavItem>
  {
    [NavItem("Overview", "/admin/dashboard"), NavItem("Appointments", "/admin/appointments")]
  }

  function OtherNavigation(): seq<NavItem>
  {
    [NavItem("Patients", "/admin/pacientes"), NavItem("Doctors", "/admin/doctores"),
     NavItem("Administration", "/admin/administration")]
  }

  function HelpNavigation(): seq<NavItem>
  {
    [NavItem("Help & Center", "/admin/help"), NavItem("Settings", "/admin/settings")]
  }

  datatype Group = Group(title: string, items: seq<NavItem>)

  /** The groups in the order they are rendered. */
  function Groups(): (gs: seq<Group>)
    ensures |gs| == 3
    ensures gs[0].title == "Main Menu" && gs[1].title == "Other Menu" && gs[2].title == "Help & Settings"
  {
    [Group("Main Menu", MainNavigation()), Group("Other Menu", OtherNavigation()), Group("Help & Settings", HelpNavigation())]
  }

  /** Every link, group by group. */
  function AllItems(): (items: seq<NavItem>)
    ensures |items| == 7
    ensures items == Groups()[0].items + Groups()[1].items + Groups()[2].items
  {
    MainNavigation() + OtherNavigation() + HelpNavigation()
  }

  /** `location.pathname.startsWith(item.href)`. */
  predicate IsActive(path: string, item: NavItem)
  {
    |item.href| <= |path| && path[..|item.href|] == item.href
  }

  /** Every target is "/admin/" followed by at least two characters, and the two characters after "/admin/" differ from link to link. */
  lemma HrefKeys()
    ensures forall i :: 0 <= i < |AllItems()| ==> |AllItems()[i].href| >= 9 && AllItems()[i].href[..7] == "/admin/"
    ensures forall i, j :: 0 <= i < j < |AllItems()| ==>
      AllItems()[i].href[7] != AllItems()[j].href[7] || AllItems()[i].href[8] != AllItems()[j].href[8]
  {
    var items := AllItems();
    assert items[0].href[7] == 'd' && items[0].href[8] == 'a';
    assert items[1].href[7] == 'a' && items[1].href[8] == 'p';
    assert items[2].href[7] == 'p' && items[2].href[8] == 'a';
    assert items[3].href[7] == 'd' && items[3].href[8] == 'o';
    assert items[4].href[7] == 'a' && items[4].href[8] == 'd';
    assert items[5].href[7] == 'h' && items[5].href[8] == 'e';
    assert items[6].href[7] == 's' && items[6].href[8] == 'e';
  }

  /** No link's target is a prefix of another's. */
  lemma NoHrefIsAPrefixOfAnother(i: nat, j: nat)
    requires i < |AllItems()| && j < |AllItems()| && i != j
    ensures !IsActive(AllItems()[j].href, AllItems()[i])
  {
    HrefKeys();
  }

  /** So whatever the path, at most one link is active. */
  lemma AtMostOneActive(path: string, i: nat, j: nat)
    requires i < |AllItems()| && j < |AllItems()|
    requires IsActive(path, AllItems()[i]) && IsActive(path, AllItems()[j])
    ensures i == j
  {
    var a, b := AllItems()[i].href, AllItems()[j].href;
    if i != j {
      if |a| <= |b| {
        assert b[..|a|] == path[..|a|] == a;
        NoHrefIsAPrefixOfAnother(i, j);
      } else {
        assert a[..|b|] == path[..|b|] == b;
        NoHrefIsAPrefixOfAnother(j, i);
      }
    }
  }

  /** A patient's profile page keeps "Patients" active. */
  lemma PatientProfileActivatesPatients(id: string)
    ensures IsActive("/admin/pacientes/" + id, AllItems()[2])
    ensures AllItems()[2].name == "Patients"
  {
    assert ("/admin/pacientes/" + id)[..16] == "/admin/pacientes";
  }
}

=== FILE: time_selector.dfy ===
/**
 * The booking calendar widget: the fixed list of half-hour slots from 09:00 to 17:00,
 * the Monday-based week window with next/previous navigation, and which day buttons
 * are disabled.
 */
module TimeSelector {
  import opened Wrappers
  import opened Types

  function DigitChar(d: nat): char
    requires d < 10
  {
    ('0' as int + d) as char
  }

  predicate IsDigit(c: char)
  {
    '0' <= c <= '9'
  }

  lemma DigitCharInjective(a: nat, b: nat)
    requires a < 10 && b < 10
    ensures IsDigit(DigitChar(a))
    ensures DigitChar(a) == DigitChar(b) ==> a == b
  {
  }

  /** `String(n)` for a natural number: its decimal digits, most significant first. */
  function DecimalText(n: nat): (s: string)
    ensures |s| >= 1
  {
    if n < 10 then [DigitChar(n)] else DecimalText(n / 10) + [DigitChar(n % 10)]
  }

  /** `s.padStart(2, '0')`: left-pads with zeros up to two characters, never truncates. */
  function PadStart2(s: string): (r: string)
    ensures |r| == if |s| < 2 then 2 else |s|
  {
    if |s| == 0 then "00" else if |s| == 1 then "0" + s else s
  }

  /** Two-digit zero-padded decimal text of a number below one hundred. */
  lemma PaddedTwoDigits(n: nat)
    requires n < 100
    ensures PadStart2(DecimalText(n)) == [DigitChar(n / 10), DigitChar(n % 10)]
  {
    if n >= 10 {
      assert DecimalText(n / 10) == [DigitChar(n / 10)];
    }
  }

  /** "HH:MM" for a minute of the day, both fields zero-padded to two digits. */
  function ClockText(minuteOfDay: nat): string
  {
    PadStart2(DecimalText(minuteOfDay / 60)) + ":" + PadStart2(DecimalText(minuteOfDay % 60))
  }

  /** The two characters of a zero-padded number below one hundred. */
  function TwoDigits(n: nat): string
    requires n < 100
  {
    [DigitChar(n / 10), DigitChar(n % 10)]
  }

  lemma TwoDigitsInjective(a: nat, b: nat)
    requires a < 100 && b < 100
    requires TwoDigits(a) == TwoDigits(b)
    ensures a == b
  {
    assert TwoDigits(a)[0] == TwoDigits(b)[0] && TwoDigits(a)[1] == TwoDigits(b)[1];
    DigitCharInjective(a / 10, b / 10);
    DigitCharInjective(a % 10, b % 10);
  }

  lemma TwoDigitsDistinct(a: nat, b: nat)
    requires a < 100 && b < 100 && a != b
    ensures TwoDigits(a) != TwoDigits(b)
  {
    if a / 10 != b / 10 {
      DigitCharInjective(a / 10, b / 10);
      assert TwoDigits(a)[0] != TwoDigits(b)[0];
    } else {
      DigitCharInjective(a % 10, b % 10);
      assert TwoDigits(a)[1] != TwoDigits(b)[1];
    }
  }

  /** Within a day the clock text is two digits, a colon, and two digits. */
  lemma ClockTextChars(m: nat)
    requires m < 1440
    ensures ClockText(m) == TwoDigits(m / 60) + ":" + TwoDigits(m % 60)
  {
    PaddedTwoDigits(m / 60);
    PaddedTwoDigits(m % 60);
  }

  /** Different minutes of the day never print the same. */
  lemma ClockTextInjective(a: nat, b: nat)
    requires a < 1440 && b < 1440
    requires ClockText(a) == ClockText(b)
    ensures a == b
  {
    ClockTextChars(a);
    ClockTextChars(b);
    var ta, tb := ClockText(a), ClockText(b);
    assert ta[..2] == TwoDigits(a / 60) && tb[..2] == TwoDigits(b / 60);
    assert ta[3..] == TwoDigits(a % 60) && tb[3..] == TwoDigits(b % 60);
    TwoDigitsInjective(a / 60, b / 60);
    TwoDigitsInjective(a % 60, b % 60);
  }

  const FirstHour: nat := 9
  const LastHour: nat := 17
  const SlotStep: nat := 30
  const SlotCount: nat := 17

  /** Minute of the day at which slot k starts: 09:00 plus k half hours. */
  function SlotMinute(k: nat): nat
  {
    FirstHour * 60 + SlotStep * k
  }

  /** The text of slot k: the clock text of its starting minute. */
  function Slot(k: nat): string
  {
    ClockText(SlotMinute(k))
  }

  /** The first n slots, each the clock text of its starting minute. */
  function SlotsUpTo(n: nat): (r: seq<string>)
    ensures |r| == n
  {
    if n == 0 then [] else SlotsUpTo(n - 1) + [Slot(n - 1)]
  }

  /** The k-th of the first n slots is slot k; in particular `SlotTable()[k] == Slot(k)`. */
  lemma {:induction false} SlotsUpToAt(n: nat, k: nat)
    requires k < n
    ensures SlotsUpTo(n)[k] == Slot(k)
  {
    if k < n - 1 {
      SlotsUpToAt(n - 1, k);
    }
  }

  /** The slots the widget offers: 09:00 and every half hour after it, seventeen in all. */
  function SlotTable(): (t: seq<string>)
    ensures |t| == SlotCount
  {
    SlotsUpTo(SlotCount)
  }

  lemma MinuteFieldTexts()
    ensures PadStart2(DecimalText(0)) == "00"
    ensures PadStart2(DecimalText(30)) == "30"
  {
    assert DecimalText(30) == DecimalText(3) + [DigitChar(0)];
  }

  lemma OnTheHour(h: nat)
    ensures ClockText(60 * h) == PadStart2(DecimalText(h)) + ":00"
  {
    var m := 60 * h;
    assert m / 60 == h && m % 60 == 0;
    MinuteFieldTexts();
  }

  lemma OnTheHalfHour(h: nat)
    ensures ClockText(60 * h + 30) == PadStart2(DecimalText(h)) + ":30"
  {
    var m := 60 * h + 30;
    assert m / 60 == h && m % 60 == 30;
    MinuteFieldTexts();
  }

  /** The slot pushed first for hour i sits at position 2(i - 9). */
  lemma SlotOnHour(i: nat)
    requires FirstHour <= i
    ensures Slot(2 * (i - FirstHour)) == PadStart2(DecimalText(i)) + ":00"
  {
    var k := 2 * (i - FirstHour);
    assert SlotMinute(k) == 60 * i;
    OnTheHour(i);
    assert ClockText(SlotMinute(k)) == ClockText(60 * i);
  }

  /** The half-hour slot pushed for hour i sits right after it. */
  lemma SlotOnHalfHour(i: nat)
    requires FirstHour <= i
    ensures Slot(2 * (i - FirstHour) + 1) == PadStart2(DecimalText(i)) + ":30"
  {
    var k := 2 * (i - FirstHour) + 1;
    assert SlotMinute(k) == 60 * i + 30;
    OnTheHalfHour(i);
    assert ClockText(SlotMinute(k)) == ClockText(60 * i + 30);
  }

  lemma ExtendSlots(slots: seq<string>, text: string)
    requires slots == SlotsUpTo(|slots|)
    requires text == Slot(|slots|)
    ensures slots + [text] == SlotsUpTo(|slots| + 1)
  {
  }

  /**
   * `generateTimeSlots`: for each hour from 9 to 17 push "HH:00", and "HH:30" for every
   * hour but the last.
   */
  method GenerateTimeSlots() returns (slots: seq<string>)
    ensures slots == SlotTable()
  {
    slots := [];
    var i := FirstHour;
    while i <= LastHour
      invariant FirstHour <= i <= LastHour + 1
      invariant |slots| == if i <= LastHour then 2 * (i - FirstHour) else SlotCount
      invariant slots == SlotsUpTo(|slots|)
    {
      SlotOnHour(i);
      ExtendSlots(slots, PadStart2(DecimalText(i)) + ":00");
      slots := slots + [PadStart2(DecimalText(i)) + ":00"];
      if i < LastHour {
        SlotOnHalfHour(i);
        ExtendSlots(slots, PadStart2(DecimalText(i)) + ":30");
        slots := slots + [PadStart2(DecimalText(i)) + ":30"];
      }
      i := i + 1;
    }
  }

  /**
   * Every slot reads "HH:MM": the hour 9 + k/2 as two digits, a colon, and minutes
   * "00" on even positions and "30" on odd ones.
   */
  lemma SlotTableFormat(k: nat)
    requires k < SlotCount
    ensures SlotTable()[k] == TwoDigits(FirstHour + k / 2) + (if k % 2 == 0 then ":00" else ":30")
  {
    SlotsUpToAt(SlotCount, k);
    SlotFormat(k);
  }

  lemma SlotFormat(k: nat)
    requires k < SlotCount
    ensures Slot(k) == TwoDigits(FirstHour + k / 2) + (if k % 2 == 0 then ":00" else ":30")
  {
    var m := SlotMinute(k);
    assert m / 60 == FirstHour + k / 2;
    assert m % 60 == if k % 2 == 0 then 0 else 30;
    HalfHourText(m);
  }

  lemma HalfHourText(m: nat)
    requires m < 1440 && (m % 60 == 0 || m % 60 == 30)
    ensures ClockText(m) == TwoDigits(m / 60) + (if m % 60 == 0 then ":00" else ":30")
  {
    ClockTextChars(m);
    assert TwoDigits(0) == "00" && TwoDigits(30) == "30";
  }

  /** A slot on a full hour reads the hour's two digits followed by ":00". */
  lemma OnHourSlot(k: nat, h: nat)
    requires k < SlotCount && k % 2 == 0 && h == FirstHour + k / 2
    ensures Slot(k) == [DigitChar(h / 10), DigitChar(h % 10), ':', '0', '0']
  {
    SlotFormat(k);
  }

  /** The first slot of the table is "09:00". */
  lemma FirstSlot()
    ensures SlotTable()[0] == "09:00"
  {
    SlotsUpToAt(SlotCount, 0);
    OnHourSlot(0, 9);
  }

  /** The last slot of the table is "17:00". */
  lemma LastSlot()
    ensures SlotTable()[SlotCount - 1] == "17:00"
  {
    HourEntry(SlotCount, SlotCount - 1, LastHour);
    LastHourText();
  }

  /** An even position of the first n slots holds its hour's two digits followed by ":00". */
  lemma HourEntry(n: nat, k: nat, h: nat)
    requires k < n && k < SlotCount && k % 2 == 0 && h == FirstHour + k / 2
    ensures SlotsUpTo(n)[k] == [DigitChar(h / 10), DigitChar(h % 10), ':', '0', '0']
  {
    SlotsUpToAt(n, k);
    OnHourSlot(k, h);
  }

  /** The digits of the last hour spell "17:00". */
  lemma LastHourText()
    ensures [DigitChar(LastHour / 10), DigitChar(LastHour % 10), ':', '0', '0'] == "17:00"
  {
    assert DigitChar(1) == '1' && DigitChar(7) == '7';
  }

  /** No slot starts at 17:30: the last hour offers only its full hour. */
  lemma NoSlotAfterLastHour()
    ensures "17:30" !in SlotTable()
  {
    forall k | 0 <= k < SlotCount
      ensures SlotTable()[k] != "17:30"
    {
      SlotTableFormat(k);
      SlotIsNotHalfPastFive(k, SlotTable()[k]);
    }
  }

  lemma SlotIsNotHalfPastFive(k: nat, t: string)
    requires k < SlotCount
    requires t == TwoDigits(FirstHour + k / 2) + (if k % 2 == 0 then ":00" else ":30")
    ensures t != "17:30"
  {
    if k % 2 == 0 {
      assert t[3] == '0';
    } else {
      assert t[..2] == TwoDigits(FirstHour + k / 2);
      assert TwoDigits(17) == "17";
      TwoDigitsDistinct(FirstHour + k / 2, 17);
    }
  }

  /**
   * Slots are in strictly increasing time, thirty minutes apart, and never repeat: the
   * table's entries are the clock texts of minutes that grow by thirty per position.
   */
  lemma SlotTableIncreasing(i: nat, j: nat)
    requires i < j < SlotCount
    ensures SlotTable()[i] == ClockText(SlotMinute(i)) && SlotTable()[j] == ClockText(SlotMinute(j))
    ensures SlotMinute(j) == SlotMinute(i) + SlotStep * (j - i)
    ensures SlotTable()[i] != SlotTable()[j]
  {
    SlotsUpToAt(SlotCount, i);
    SlotsUpToAt(SlotCount, j);
    if SlotTable()[i] == SlotTable()[j] {
      ClockTextInjective(SlotMinute(i), SlotMinute(j));
    }
  }

  /** Time slots are offered only once a day has been selected. */
  function SlotsOffered(selectedDay: Option<int>): (offered: seq<string>)
    ensures selectedDay.None? ==> offered == []
    ensures selectedDay.Some? ==> offered == SlotTable()
  {
    if selectedDay.Some? then SlotTable() else []
  }

  // ---- week window ----

  /** Day of the week with Monday = 0; day 0 of the epoch (1 January 1970) is a Thursday. */
  function Weekday(day: int): (w: nat)
    ensures w < 7
  {
    (day + 3) % 7
  }

  /** `startOfWeek(d, { weekStartsOn: 1 })`: the Monday on or before the day. */
  function StartOfWeek(day: int): (monday: int)
    ensures Weekday(monday) == 0
    ensures monday <= day < monday + 7
  {
    var w := Weekday(day);
    assert day + 3 == 7 * ((day + 3) / 7) + w;
    assert day - w + 3 == 7 * ((day + 3) / 7);
    day - w
  }

  /** The seven days shown for a display day: Monday to Sunday of its week. */
  function WeekDays(displayDay: int): (days: seq<int>)
    ensures |days| == 7
    ensures Weekday(days[0]) == 0
    ensures forall i :: 0 <= i < 7 ==> days[i] == days[0] + i
    ensures displayDay in days
  {
    var start := StartOfWeek(displayDay);
    var days := seq(7, i requires 0 <= i < 7 => start + i);
    assert days[displayDay - start] == displayDay;
    days
  }

  function NextWeek(displayDay: int): int
  {
    displayDay + 7
  }

  function PrevWeek(displayDay: int): int
  {
    displayDay - 7
  }

  /** Navigating a week forward moves every shown day by seven; back after forward is the identity. */
  lemma NextWeekShiftsWindow(displayDay: int)
    ensures forall i :: 0 <= i < 7 ==> WeekDays(NextWeek(displayDay))[i] == WeekDays(displayDay)[i] + 7
    ensures PrevWeek(NextWeek(displayDay)) == displayDay
    ensures NextWeek(PrevWeek(displayDay)) == displayDay
  {
    var d := displayDay;
    assert (d + 7 + 3) % 7 == (d + 3) % 7 by {
      assert d + 7 + 3 == (d + 3) + 7 * 1;
    }
    assert StartOfWeek(d + 7) == StartOfWeek(d) + 7;
  }

  /** `isPast(day)`: the day's midnight lies before the current instant. */
  predicate IsPast(day: int, now: Millis)
  {
    StartOfDay(day) < now
  }

  /** A day button is disabled when the day is past and is not today. */
  predicate DayDisabled(day: int, now: Millis)
  {
    IsPast(day, now) && day != DayOf(now)
  }

  /** A day is disabled exactly when it comes before today; today is selectable. */
  lemma DayDisabledIffBeforeToday(day: int, now: Millis)
    ensures DayDisabled(day, now) <==> day < DayOf(now)
  {
    var today := DayOf(now);
    if day < today {
      assert day * MsPerDay <= (today - 1) * MsPerDay;
      assert (today - 1) * MsPerDay < today * MsPerDay;
    } else if day > today {
      assert (today + 1) * MsPerDay <= day * MsPerDay;
    }
  }
}

=== FILE: types.dfy ===
/**
 * The records the clinic application reads from and writes to its hosted tables
 * (`appointments`, `profiles`, `patients`), with optional columns as `Option`.
 */
module Types {
  import opened Wrappers

  type Id = string

  /** Instants are integer milliseconds since the epoch; days are integer day numbers. */
  type Millis = int

  const MsPerMinute: int := 60000
  const MsPerHour: int := 3600000
  const MsPerDay: int := 86400000

  /** The calendar day an instant falls on (no time zones in this model). */
  function DayOf(t: Millis): (d: int)
    ensures d * MsPerDay <= t < (d + 1) * MsPerDay
  {
    t / MsPerDay
  }

  /** The instant at which a day starts (local midnight). */
  function StartOfDay(d: int): Millis
  {
    d * MsPerDay
  }

  /** JavaScript truthiness of an optional string: present and not empty. */
  predicate Present(s: Option<string>)
  {
    s.Some? && s.value != ""
  }

  /** `Appointment.status`: one of three literals. */
  datatype Status = Pending | Confirmed | Cancelled

  /** `Profile.role`: one of two literals. */
  datatype Role = Admin | Doctor

  /** The column text of a status, as stored and as compared by the screens. */
  function StatusText(s: Status): string
  {
    match s
    case Pending => "pending"
    case Confirmed => "confirmed"
    case Cancelled => "cancelled"
  }

  /** Reads a status column; only the three literals are statuses. */
  function ParseStatus(t: string): (r: Option<Status>)
    ensures r.Some? <==> t == "pending" || t == "confirmed" || t == "cancelled"
    ensures r.Some? ==> StatusText(r.value) == t
  {
    if t == "pending" then Some(Pending)
    else if t == "confirmed" then Some(Confirmed)
    else if t == "cancelled" then Some(Cancelled)
    else None
  }

  lemma StatusTextRoundTrip(s: Status)
    ensures ParseStatus(StatusText(s)) == Some(s)
  {
  }

  function RoleText(r: Role): string
  {
    match r
    case Admin => "admin"
    case Doctor => "doctor"
  }

  /** Reads a role column; only "admin" and "doctor" are roles. */
  function ParseRole(t: string): (r: Option<Role>)
    ensures r.Some? <==> t == "admin" || t == "doctor"
    ensures r.Some? ==> RoleText(r.value) == t
  {
    if t == "admin" then Some(Admin)
    else if t == "doctor" then Some(Doctor)
    else None
  }

  /**
   * An appointment row. `phone`, `notes`, `patientId` and `doctorId` are optional;
   * `doctor` is the display-only join filled in by the appointments screen.
   */
  datatype Appointment = Appointment(
    id: Id,
    fullName: string,
    email: string,
    phone: Option<string>,
    specialty: string,
    appointmentDate: Millis,
    notes: Option<string>,
    status: Status,
    createdAt: Millis,
    patientId: Option<Id>,
    doctorId: Option<Id>,
    doctor: Option<string>)

  /**
   * A staff profile. The declared interface has a single `specialty`, while the admin
   * screens and the provisioning endpoint use a `specialties` array: both are kept.
   */
  datatype Profile = Profile(
    id: Id,
    fullName: Option<string>,
    role: Role,
    updatedAt: Millis,
    specialty: Option<string>,
    specialties: Option<seq<string>>,
    phone: Option<string>,
    address: Option<string>,
    email: Option<string>)

  /** A patient row; `phone`, `bloodType`, `address` and `idNumber` are optional. */
  datatype Patient = Patient(
    id: Id,
    fullName: string,
    email: string,
    phone: Option<string>,
    createdAt: Millis,
    bloodType: Option<string>,
    address: Option<string>,
    idNumber: Option<string>)
}

=== FILE: wrappers.dfy ===
/** Option and backend-reply wrappers shared by every module of the model. */
module Wrappers {

  /** A value that may be absent: `undefined`/`null` on the TypeScript side. */
  datatype Option<+T> = None | Some(value: T)

  /** What a backend call that returns data answers: the data, or an error object. */
  datatype Reply<+T> = Data(value: T) | Error

  /** What a backend call that returns no data answers. */
  datatype Outcome = Ok | Failed
  datatype Result<+T, +E> = Success(value: T) | Failure(error: E)
}
